=== FILE: README.md ===
# pyco-sqlalchemy value normalisation, in Dafny

This project models the pure core of `pyco_sqlalchemy`, a convenience layer
over Flask-SQLAlchemy, and proves properties of that model. The core has three parts:

- **The string helpers of `regex.py`.** `alphanumeric`, `simple_case`,
  `snake_case`, `camel_case` and `title_case` are each one regular-expression
  substitution. Here each is a recursive function on `seq<char>`. For
  `snake_case`, `camel_case` and `title_case` an independent
  position-by-position reading of the pattern stands next to it, and a lemma
  says the two agree. `alphanumeric` and `simple_case` are pinned down by
  decomposition lemmas instead: how the rewrite acts on a run, on a kept
  character and across a concatenation.
- **The bind-side conversions of three column types in `_types.py`.** These are
  `FixedBool`, `TrimString` and `StringTags`. Each is a total function on a tagged
  Python value (`Str`, `Int`, `Float`, `Bool`, `None`, other objects). Python's
  `==` is modelled, so `False == 0` and `0.0 == 0` hold.
- **The record layer of `BaseModel` in `_flask.py`.** This covers `strict_form`,
  `primary_keys`/`_immutable_keys`, `update`, `to_dict`, and the find-or-insert
  decisions of `get_or_none`, `insert`, `upsert_one` and `getOr404`.
  - The ORM is replaced by an explicit model descriptor: the class name, the set
    of mapped column names, and the primary-key names.
  - A record is a map from attribute names to values.
  - A table is a sequence of records, and a record is identified by its position.

Modules, one per file:

- `Text` (`text.dfy`): character classes, ASCII case, `str.strip`,
  `str.split(',')` and `','.join`.
- `Values` (`values.dfy`): Python values, `==`, `in` on a list, truthiness.
- `Types` (`types.dfy`): the column codecs.
- `Regex` (`regex.dfy`) and `RegexTitle` (`title.dfy`): the string helpers.
- `RegexExamples` (`regex_examples.dfy`): the doc-comment examples of
  `regex.py`, proved.
- `Flask` (`flask.dfy`): the record layer.

Whitespace is the exact set of code points for which Python's
`str.isspace()` holds. For a `str` pattern, `\s` matches the same set.
Letter and digit classes are ASCII, as in the patterns.

## Model

| member | source | states |
|---|---|---|
| Text.Strip | pyco_sqlalchemy/_types.py:53 | `str.strip()`: the result starts and ends with a non-space character and is no longer than the input |
| Text.StripSlice | pyco_sqlalchemy/_types.py:53 | the stripped string is the slice of the input between its leading and its trailing whitespace, both of which are all whitespace |
| Text.StripIdempotent | pyco_sqlalchemy/_types.py:53 | stripping twice is stripping once |
| Text.Split | pyco_sqlalchemy/_types.py:62 | `s.split(',')` gives one more part than there are commas, and no part contains a comma |
| Text.Join | pyco_sqlalchemy/_types.py:62 | `d.join(parts)`: the first part is a prefix of the result, a single part is the result, and the result is at least one character per separator long; `JoinSplit` and `SplitJoin` make it the inverse of `Split` |
| Text.JoinSplit | pyco_sqlalchemy/_types.py:62 | joining the parts of a split with the separator gives back the string |
| Text.SplitJoin | pyco_sqlalchemy/_types.py:62 | splitting a join of separator-free parts gives back the parts |
| Values.PyEq | pyco_sqlalchemy/_types.py:41-43 | Python's `==`: numbers compare by value across `bool`, `int` and `float`, a number never equals a non-number, and every other value equals only itself |
| Values.Truthy | pyco_sqlalchemy/_types.py:52 | `bool(v)`: a number is true when non-zero, a string when non-empty, `None` is false and any other object true |
| Values.PyIn | pyco_sqlalchemy/_types.py:41-43 | `v in items` on a list: an element identical to `v` makes it true and the empty list makes it false; `PyInAt` states it fully |
| Values.PyInAt | pyco_sqlalchemy/_types.py:41 | `v in [..]` holds exactly when some element compares equal to `v` under Python's `==` |
| Values.NonEmptyStr | pyco_sqlalchemy/_types.py:52 | `value and isinstance(value, str)` holds exactly for non-empty strings |
| Types.FixedBool | pyco_sqlalchemy/_types.py:40-45 | false-like values give `False`, true-like values give `True`, and every other value is returned unchanged, with no truthiness fallback |
| Types.FalseTokensMatch | pyco_sqlalchemy/_types.py:41 | a value is in `["0", 0, "false", "False"]` exactly when it is one of the three strings or a number equal to 0 (which includes `False` and `0.0`) |
| Types.TrueTokensMatch | pyco_sqlalchemy/_types.py:43 | a value is in `["1", 1, "true", "True"]` exactly when it is one of the three strings or a number equal to 1 (which includes `True` and `1.0`) |
| Types.FixedBoolIdempotent | pyco_sqlalchemy/_types.py:40-45 | applying the codec twice is applying it once |
| Types.FixedBoolFalseExamples | pyco_sqlalchemy/_types.py:41-42 | `False` and `0.0` become `False` |
| Types.FixedBoolTrueExamples | pyco_sqlalchemy/_types.py:43-44 | `True` and `1.0` become `True` |
| Types.FixedBoolStringExamples | pyco_sqlalchemy/_types.py:45 | `"yes"` and `"FALSE"` are passed on unchanged |
| Types.FixedBoolOtherExamples | pyco_sqlalchemy/_types.py:45 | `None` and `2` are passed on unchanged |
| Types.TrimString | pyco_sqlalchemy/_types.py:51-54 | a string comes out as a string with no whitespace at either end; every non-string value is returned unchanged |
| Types.TrimStringStrips | pyco_sqlalchemy/_types.py:52-53 | on every string, the empty one included, the result is the stripped string |
| Types.TrimStringIdempotent | pyco_sqlalchemy/_types.py:51-54 | applying the codec twice is applying it once |
| Types.Tags | pyco_sqlalchemy/_types.py:62 | the stripped comma-separated segments: one more than the commas, each comma-free and stripped |
| Types.StringTags | pyco_sqlalchemy/_types.py:60-63 | the result is always a string, and it is `""` for every empty or non-string input |
| Types.StringTagsSplit | pyco_sqlalchemy/_types.py:62 | splitting the output at its commas gives exactly the stripped input segments, empty ones included |
| Types.StringTagsCommas | pyco_sqlalchemy/_types.py:62 | the output has as many commas as the input |
| Types.StringTagsTight | pyco_sqlalchemy/_types.py:60-63 | the output has no whitespace next to a comma or at either end |
| Types.StringTagsIdempotent | pyco_sqlalchemy/_types.py:60-63 | applying the codec twice is applying it once |
| Regex.Collapse | pyco_sqlalchemy/regex.py:12 | for a separator without a backslash, the substitution of `[^0-9a-zA-Z]+` by `sep` yields only alphanumerics and characters of `sep`, and keeps a leading alphanumeric |
| Regex.Alphanumeric | pyco_sqlalchemy/regex.py:4-12 | for a separator without a backslash, the output holds only alphanumerics and characters of `sep`, and starts with the stripped input's first character when that is alphanumeric |
| Regex.CollapseRun | pyco_sqlalchemy/regex.py:12 | a non-empty run of non-alphanumerics becomes exactly one `sep` |
| Regex.CollapseAround | pyco_sqlalchemy/regex.py:12 | an alphanumeric character is kept in place and the two sides are rewritten independently |
| Regex.CollapseAppend | pyco_sqlalchemy/regex.py:12 | the rewrite distributes over a concatenation cut next to an alphanumeric |
| Regex.AlphanumericChars | pyco_sqlalchemy/regex.py:12 | with `sep='_'`, the output contains only `[0-9a-zA-Z_]` |
| Regex.AlphanumericNoDoubleUnderscore | pyco_sqlalchemy/regex.py:12 | with `sep='_'`, the output has no two adjacent underscores |
| Regex.AlphanumericKeepsAlnum | pyco_sqlalchemy/regex.py:12 | for a separator without alphanumerics, the alphanumerics of the output are those of the stripped input, in order |
| Regex.AlphanumericIdempotent | pyco_sqlalchemy/regex.py:12 | for a separator of non-alphanumeric, non-space characters, applying it twice is applying it once |
| Regex.AlphanumericOfAlnum | pyco_sqlalchemy/regex.py:12 | an all-alphanumeric string is returned unchanged |
| Regex.SimpleCase | pyco_sqlalchemy/regex.py:23 | the output is no longer than the input and contains only `[0-9a-zA-Z_\-.]` |
| Regex.SimpleCaseSubsequence | pyco_sqlalchemy/regex.py:23 | each output character at position k is an input character at a position no earlier than k |
| Regex.SimpleCaseKeeps | pyco_sqlalchemy/regex.py:23 | a string of class characters only is returned unchanged |
| Regex.SimpleCaseAppend | pyco_sqlalchemy/regex.py:23 | the filter distributes over concatenation |
| Regex.SimpleCaseIdempotent | pyco_sqlalchemy/regex.py:23 | applying it twice is applying it once |
| Regex.SnakeCase | pyco_sqlalchemy/regex.py:26-43 | the output has no upper-case letter and is as long as `alphanumeric(s)` plus one per underscore inserted; `SnakeCaseAt` places every character |
| Regex.SnakeRewrite | pyco_sqlalchemy/regex.py:42-43 | the rewrite of the first n characters is n characters long, plus one for each underscore inserted |
| Regex.SnakeRewriteAt | pyco_sqlalchemy/regex.py:42-43 | each character of the normalised string lands at its position shifted by the underscores inserted before it; it is preceded by `_` exactly when it is upper-case and either follows `[a-z0-9]` or is not first and is followed by `[a-z]` |
| Regex.SnakeCaseAt | pyco_sqlalchemy/regex.py:41-43 | the same per-position statement for the lower-cased result of `snake_case`, including its length |
| Text.LowerAll | pyco_sqlalchemy/regex.py:43 | `.lower()` on ASCII: the same length, and every character lower-cased in place |
| Regex.SnakeCaseChars | pyco_sqlalchemy/regex.py:41-43 | the output contains only `[a-z0-9_]` |
| Regex.SnakeRewriteIsFrom | pyco_sqlalchemy/regex.py:42-43 | the left-to-right scan and the per-position rewrite give the same string |
| Regex.SnakeFromSplit | pyco_sqlalchemy/regex.py:42-43 | the scan distributes over a cut where neither neighbouring decision changes |
| Regex.SnakeCaseOfAlnum | pyco_sqlalchemy/regex.py:41 | on an alphanumeric input the normalisation step changes nothing |
| Regex.CamelCase | pyco_sqlalchemy/regex.py:46-56 | the output is no longer than the input; `CamelCaseIsPieces` and `CamelCaseAt` place every character |
| Regex.CamelCaseIsPieces | pyco_sqlalchemy/regex.py:56 | the left-to-right substitution equals the per-position reading: a separator in `[-_.\s]` followed by `[a-z]` becomes that letter upper-cased, the consumed letter contributes nothing, and every other character is itself |
| Regex.CamelCaseAt | pyco_sqlalchemy/regex.py:56 | the output is the input length minus the number of replacements; a matching separator is replaced by its letter upper-cased, and every other untouched character is kept at its shifted position |
| Regex.CamelPiecesLength | pyco_sqlalchemy/regex.py:56 | the length bookkeeping of the per-position reading |
| Regex.CamelCaseNoMatchLeft | pyco_sqlalchemy/regex.py:56 | the output has no separator followed by a lower-case letter |
| Regex.CamelCaseIdempotent | pyco_sqlalchemy/regex.py:56 | applying it twice is applying it once |
| Regex.CamelCaseAppend | pyco_sqlalchemy/regex.py:56 | the substitution distributes over a cut after a non-separator |
| RegexTitle.LetterRunEnd | pyco_sqlalchemy/regex.py:65 | the end of the letter run `[A-Za-z]+` starting at i: all letters before it and no letter at it |
| RegexTitle.Capitalize | pyco_sqlalchemy/regex.py:65 | `str.capitalize()` on a matched word: the same length, the first letter upper-cased and the rest lower-cased |
| RegexTitle.TitleCase | pyco_sqlalchemy/regex.py:59-65 | the output has the input's length |
| RegexTitle.TitleCaseAt | pyco_sqlalchemy/regex.py:65 | position by position, the output is what an independent four-state word automaton emits: a letter outside a word is upper-cased, a letter inside a word is lower-cased, everything else is kept |
| RegexTitle.TitleCaseKeeps | pyco_sqlalchemy/regex.py:65 | characters outside words are unchanged, and letters change case only |
| RegexTitle.TitleCaseOfRun | pyco_sqlalchemy/regex.py:65 | a written-out automaton run determines the output |
| RegexTitle.TitleCaseAppend | pyco_sqlalchemy/regex.py:65 | the substitution distributes over a cut where the automaton is outside a word |
| RegexTitle.TitleCaseExample | pyco_sqlalchemy/regex.py:62-63 | `"they're bill's friends."` becomes `"They're Bill's Friends."` |
| RegexExamples.CollapseExample | pyco_sqlalchemy/regex.py:9-10 | each run of non-alphanumerics in the doc example's input becomes one `_`, giving `h_ell_o_w_orld` |
| RegexExamples.AlphanumericExample | pyco_sqlalchemy/regex.py:9-10 | the doc example: `alphanumeric` of its input is `h_ell_o_w_orld` |
| RegexExamples.SimpleCaseExample1 | pyco_sqlalchemy/regex.py:18-19 | the first `simple_case` doc example |
| RegexExamples.SimpleCaseExample2 | pyco_sqlalchemy/regex.py:20-21 | the second `simple_case` doc example, with its non-ASCII characters dropped |
| RegexExamples.SnakeRewriteExample1 | pyco_sqlalchemy/regex.py:30-31 | the underscores inserted into `getHTTPResponseCode` |
| RegexExamples.SnakeCaseExample1 | pyco_sqlalchemy/regex.py:30-31 | `snake_case('getHTTPResponseCode') == 'get_http_response_code'` |
| RegexExamples.SnakeRewriteExample2 | pyco_sqlalchemy/regex.py:32-33 | the underscores inserted into `get2HTTPResponseCode` |
| RegexExamples.SnakeCaseExample2 | pyco_sqlalchemy/regex.py:32-33 | `snake_case('get2HTTPResponseCode') == 'get2_http_response_code'` |
| RegexExamples.SnakeRewriteExample3 | pyco_sqlalchemy/regex.py:34-35 | the underscores inserted into `get2HTTPResponse123Code` |
| RegexExamples.SnakeCaseExample3 | pyco_sqlalchemy/regex.py:34-35 | `snake_case('get2HTTPResponse123Code') == 'get2_http_response123_code'` |
| RegexExamples.SnakeRewriteExample4 | pyco_sqlalchemy/regex.py:36-37 | the underscores inserted into `HTTPResponseCode` |
| RegexExamples.SnakeCaseExample4 | pyco_sqlalchemy/regex.py:36-37 | `snake_case('HTTPResponseCode') == 'http_response_code'` |
| RegexExamples.SnakeRewriteExample5 | pyco_sqlalchemy/regex.py:38-39 | the underscores inserted into `HTTPResponseCodeXYZ` |
| RegexExamples.SnakeCaseExample5 | pyco_sqlalchemy/regex.py:38-39 | `snake_case('HTTPResponseCodeXYZ') == 'http_response_code_xyz'` |
| RegexExamples.CamelCaseExample1 | pyco_sqlalchemy/regex.py:49-50 | the first `camel_case` doc example, with its non-ASCII characters kept |
| RegexExamples.CamelCaseExample2 | pyco_sqlalchemy/regex.py:51-52 | `camel_case("Some live to die another day.") == 'SomeLiveToDieAnotherDay.'` |
| RegexExamples.CamelCaseExample3 | pyco_sqlalchemy/regex.py:53-54 | the third `camel_case` doc example, with the typographic apostrophe |
| Flask.Merge | pyco_sqlalchemy/_flask.py:76-81 | `None` gives the keyword arguments alone; a dict gives the union of keys with the keyword arguments winning on a clash; anything else is exactly the `TypeError` case |
| Flask.CallerData | pyco_sqlalchemy/_flask.py:78-79 | a dict passed as `data` is left holding the merged form (it is updated in place); anything else is untouched |
| Flask.ImmutableKeys | pyco_sqlalchemy/_flask.py:62-72 | the keys `update` protects are exactly the names in the primary-key list, which `k not in keys` tests |
| Flask.StrictForm | pyco_sqlalchemy/_flask.py:74-90 | fails with `TypeError` exactly for a non-dict input; otherwise the keys are the merged keys that are mapped columns (unknown keys are dropped without error) and each value is the merged value as the `TrimString` codec stores it, so strings are stripped |
| Flask.StrictFormSanitised | pyco_sqlalchemy/_flask.py:83-90 | every result is sanitised: only mapped columns, values already clean |
| Flask.StrictFormFixedPoint | pyco_sqlalchemy/_flask.py:74-90 | the forms returned unchanged, whether passed as the dict or as keyword arguments, are exactly the sanitised ones |
| Flask.StrictFormIdempotent | pyco_sqlalchemy/_flask.py:83-90 | sanitising a result again returns it unchanged |
| Flask.StrictFormOfSanitised | pyco_sqlalchemy/_flask.py:74-90 | when the merged input is already sanitised, it is the result |
| Flask.Update | pyco_sqlalchemy/_flask.py:154-160 | of the failures modelled, the only one is the `TypeError` of a non-dict form |
| Flask.UpdateKeepsKeys | pyco_sqlalchemy/_flask.py:156-160 | without `force`, no primary-key attribute is set or changed |
| Flask.UpdateAssigns | pyco_sqlalchemy/_flask.py:157-160 | every assignable key of the sanitised form gets the form's value |
| Flask.UpdateLeavesRest | pyco_sqlalchemy/_flask.py:157-160 | attributes the sanitised form does not name are unchanged |
| Flask.UpdateIdempotent | pyco_sqlalchemy/_flask.py:154-160 | applying the same update twice is applying it once |
| Flask.Assign | pyco_sqlalchemy/_flask.py:157-160 | the `setattr` loop: every assignable key of the form gets the form's value, and every other attribute keeps its value or stays unset |
| Flask.AssignOne | pyco_sqlalchemy/_flask.py:157-160 | assigning one assignable key is a single map update |
| Flask.ToDict | pyco_sqlalchemy/_flask.py:142-152 | the keys are `_type`, the columns and the keyword arguments; keyword arguments override columns, and columns override `_type`, which is the class name otherwise |
| Flask.ToDictStrictForm | pyco_sqlalchemy/_flask.py:142-152 | feeding `to_dict()` back through `strict_form` drops `_type` and gives the cleaned columns; for a sanitised record holding every column that is the record itself |
| Flask.Matches | pyco_sqlalchemy/_flask.py:115 | a row matches `filter_by(**cond)` exactly when its attributes, read at the condition's keys, are the condition |
| Flask.MatchesFrom | pyco_sqlalchemy/_flask.py:115 | the positions from i on whose rows match, strictly increasing, and exactly those |
| Flask.MatchIndices | pyco_sqlalchemy/_flask.py:115 | the matching positions of the whole table, exactly those, listed in table order (the order the model picks for the query) |
| Flask.FilterBy | pyco_sqlalchemy/_flask.py:112-116 | fails exactly for a non-dict condition |
| Flask.FilterByMatches | pyco_sqlalchemy/_flask.py:112-116 | every row returned matches the sanitised condition, and there is exactly one result per matching row: the j-th result is the row at the j-th matching position, so equal matching rows are all returned |
| Flask.OneOrNone | pyco_sqlalchemy/_flask.py:121 | `None` for no match, the one position for exactly one, `MultipleResultsFound` for several |
| Flask.GetOrNone | pyco_sqlalchemy/_flask.py:118-121 | `TypeError` exactly for a non-dict condition; otherwise `None` exactly when no row matches, position i exactly when row i is the only match, `MultipleResultsFound` exactly when two rows match |
| Flask.Insert | pyco_sqlalchemy/_flask.py:98-102 | of the failures modelled, the only one is the `TypeError` of a non-dict input; otherwise it appends the sanitised form as the last row and returns its position |
| Flask.UpsertOne | pyco_sqlalchemy/_flask.py:123-130 | a successful call returns a position inside the resulting table |
| Flask.UpsertOneUpdates | pyco_sqlalchemy/_flask.py:124-127 | when exactly one row matches, that row is updated in place with primary keys protected and returned, and no other row changes |
| Flask.UpsertOneInserts | pyco_sqlalchemy/_flask.py:128-129 | when no row matches, the condition merged with the keyword arguments is inserted as a new last row |
| Flask.UpsertOneFails | pyco_sqlalchemy/_flask.py:123-130 | a non-dict condition fails with `TypeError`, and the call fails with `MultipleResultsFound` exactly when two rows match |
| Flask.UpsertOneIdempotent | pyco_sqlalchemy/_flask.py:123-130 | repeating a successful call changes nothing and returns the same row, provided the keyword arguments do not contradict the condition |
| Flask.UpsertOneCaller | pyco_sqlalchemy/_flask.py:124-129 | the caller's `condition` afterwards: it has absorbed the keyword arguments when no row matched and a row was inserted, and is unchanged otherwise |
| Flask.UpsertOneCallerDescribesRow | pyco_sqlalchemy/_flask.py:128-129 | after an insert, sanitising the caller's mutated `condition` dict gives exactly the row inserted |
| Flask.GetOr404 | pyco_sqlalchemy/_flask.py:132-140 | returns position i exactly when row i is the only match, and `NotFound` exactly when no row matches; it never raises `TypeError` |
| Flask.UserKeys | tests/test_flask.py:30-34 | the immutable keys of the test's `User` model are `{"id"}` |
| Flask.UserInsert | tests/test_flask.py:37-38 | inserting `{"name": n}` with `email=e` into an empty table gives row 0 holding both, and leaves the caller's `form` holding both |
| Flask.UserUpdate | pyco_sqlalchemy/_flask.py:154-160 | on the test's `User` model, `update({"email": e})` replaces the address and keeps the name |
| Flask.UserUpsert | tests/test_flask.py:39 | `upsert_one` with the mutated form finds row 0 and replaces its e-mail address in place |
| Flask.UserScenario | tests/test_flask.py:36-40 | for the test's own strings, `u1.id == u2.id`: both calls return row 0, which ends up holding the second address |

## Left out

- Session and transaction handling are not modelled, because they are database I/O. This covers `save`, `remove`, `commit`/`close`, `force_remove_multiple` and the SQL `count` query.
- Flask.Insert: a failure of `m.save()` when committing is not modelled. A row that breaks a database constraint is appended like any other; for example, a second row with an e-mail address already taken raises `IntegrityError` on the test's `User` model, whose `email` column is unique, but here it gives a table with both rows.
- Flask.Update: a failure of `db.session.commit()` is not modelled either, for the same reason; the record is updated in memory.
- The `db` and logger globals and the `columns()` error path are not modelled, because they are framework wiring. The mapped columns are part of the model descriptor instead.
- `initial` (the constructor call `cls(**form)`) is folded into `Flask.Insert`.
- Database defaults and generated keys (the autoincrement `id`) are not modelled, so an inserted row holds only the sanitised form.
- `CoModel` timestamps, the `DateTime` codec and `utils` are not modelled, because they depend on the clock and on date parsing.
- `OrderedJson` and the JSON helpers are not modelled. They rely on the JSON library.
- `discard` and `SecurityError` are not modelled: `_flask.py` defines neither, so the calls at tests/test_flask.py:46-55 fail with `AttributeError` on `BaseModel` as written.
- Packaging (`setup.py`, `__init__.py`) is not modelled.
- Flask.Matches: SQL comparison in `filter_by` is modelled as structural equality of values, and an unset attribute reads as `None`. SQL `NULL` semantics and type coercion in the database are not modelled.
- Flask.StrictForm: a key counts as a column exactly when it is in the model's column set. Attribute names are taken to equal column names. Relationship attributes, which are also instrumented, are not modelled.
- Flask.StrictForm: only plain dicts with string keys are modelled. A dict with a non-string key, on which `getattr(cls, k, None)` raises `TypeError`, cannot be written as a form, and neither can a dict subclass whose `update` or `items` behaves differently from `dict`'s. The `TypeError` the model raises is the one for a `data` that is neither `None` nor a dict.
- Flask.Update: the result is the updated record. Whether the form dict passed to `update` is mutated is not tracked, because no caller reads it.
- Flask.Update: `force` is a plain boolean. Inside the class the parameter `__force` is renamed to `_BaseModel__force`, so it can be passed positionally or by the keyword `_BaseModel__force` (a call written inside `BaseModel` with `__force=True` is renamed the same way). A keyword `__force=True` written outside `BaseModel` lands in `kwargs`, and `strict_form` drops it like any other unknown key.
- Dict ordering is not modelled; forms and records are maps.
- Flask.FilterBy: `filter_by(...).all()` has no `order_by`, so SQL guarantees no row order. The model returns the matching rows in table order, which is one of the orders the database may choose.
- Text.Strip: whitespace is the exact `str.isspace()` set. Upper- and lower-casing are ASCII only. `snake_case` lower-cases only after the input has been reduced to ASCII alphanumerics and `_`, so there it is exact. `title_case` changes only ASCII letters.
- Values.PyEq: floats are real numbers, so NaN, infinities and `-0.0` are not modelled. Numeric types other than `bool`, `int` and `float` (`Decimal`, `Fraction`, `complex`, NumPy scalars) are modelled as `Other` objects that compare by identity, so `FixedBool(Decimal(0))` passes the value through here, while Python's `==` makes it `False`.
- Values.Truthy: `Other` stands only for objects whose truth value is true. Python's `bool` is false for empty containers, `Decimal(0)` and objects whose `__bool__` or `__len__` says so, and the model does not represent those. The only use of truthiness is the codecs' `value and isinstance(value, str)` test, which also demands a string, so no codec result depends on it.
- Regex.Collapse: `sep` is a replacement template for `re.sub`, and its backslash escapes are not modelled. `\\` stands for one backslash, `\n` for a newline and `\g<0>` for the matched run, and a lone backslash is an error. Every member of `Regex` that takes a separator requires one without a backslash (`LiteralSep`), which `re.sub` inserts as written.
- Regex.Alphanumeric: stated only for separators without a backslash (`requires LiteralSep(sep)`), because `re.sub` treats `sep` as a template whose escapes are not modelled; the default `"_"` and the `'_'` of `snake_case` are such separators.
- Regex.AlphanumericIdempotent: stated only for separators without a backslash, as every `Regex` member taking a separator is; the default `"_"` is one.
- The codecs' `process_result_value` direction is not modelled, and neither is the dialect argument, which plays no part.
- The model follows the code of `_types.py`:
  - `FixedBool` matches exactly the eight listed tokens under Python `==`. It does not lower-case or trim the input, it has no falsy tokens beyond those four, and it has no truthiness fallback.
  - `StringTags` turns every empty or non-string input (lists included) into `""`. It does not split a list into tags.
  - There are no fixed-width string, sorted tag set or snake-case column types in the code, so none is modelled.

=== FILE: flask.dfy ===
/**
 The record layer of `_flask.py` (`BaseModel`), with the ORM replaced by an
 explicit description of the mapped class and the database by a sequence of
 records.

 A model is its class name, the set of attribute names that are mapped
 columns, and its primary-key column names. A record is a map from attribute
 names to values; an attribute that was never set reads as `None`. A table is
 a sequence of records, and a record is identified by its position in it, so
 "the same row" is "the same index". Committing, flushing and closing the
 session are not modelled; each operation returns the table it leaves behind.
 */
module Flask {
  import opened Text
  import opened Values
  import Types

  datatype Option<T> = None | Some(value: T)

  /** The exceptions the modelled operations raise: `TypeError` from
      `strict_form`, `MultipleResultsFound` from `one_or_none` and the
      `NotFound` (HTTP 404) of `getOr404`. */
  datatype Error = TypeError | MultipleResultsFound | NotFound

  datatype Result<T> = Ok(value: T) | Err(error: Error)

  type Form = map<string, Value>
  type Record = map<string, Value>
  type Table = seq<Record>

  datatype Model = Model(name: string, columns: set<string>, primaryKeys: seq<string>)

  /** What a caller passes as the positional `data`/`form`/`condition`
      argument: nothing (`None`), a dict, or some other value. */
  datatype Data = NoData | DictData(d: Form) | NotDict(v: Value)

  /** `primary_keys`, which `_immutable_keys` returns unchanged: the columns
      `update` leaves alone unless forced. */
  function ImmutableKeys(m: Model): (keys: set<string>)
    ensures forall k :: k in keys <==> k in m.primaryKeys
  {
    set i | 0 <= i < |m.primaryKeys| :: m.primaryKeys[i]
  }

  /** The attribute `k` of a record; unset attributes read as `None`. */
  function Field(r: Record, k: string): Value {
    if k in r then r[k] else Null
  }

  // ---------------------------------------------------------------------------
  // strict_form
  // ---------------------------------------------------------------------------

  /** The input `strict_form` reads: the keyword arguments alone when no data
      is given, the data dict updated with the keyword arguments (which win on
      a clash) when it is a dict, and a `TypeError` otherwise. */
  function Merge(data: Data, kwargs: Form): (r: Result<Form>)
    ensures r.Err? <==> data.NotDict?
    ensures r.Err? ==> r.error == TypeError
    ensures data.NoData? ==> r == Ok(kwargs)
    ensures data.DictData? ==> r.Ok? && r.value.Keys == data.d.Keys + kwargs.Keys
    ensures data.DictData? ==> forall k :: k in kwargs ==> r.value[k] == kwargs[k]
    ensures data.DictData? ==> forall k :: k in data.d && k !in kwargs ==> r.value[k] == data.d[k]
  {
    match data
    case NoData => Ok(kwargs)
    case DictData(d) => Ok(d + kwargs)
    case NotDict(_) => Err(TypeError)
  }

  /** The caller's `data` after the call: `data.update(**kwargs)` mutates a
      dict in place; `None` and other values are untouched. */
  function CallerData(data: Data, kwargs: Form): (r: Data)
    ensures data.DictData? ==> r == DictData(Merge(data, kwargs).value)
    ensures !data.DictData? ==> r == data
  {
    if data.DictData? then DictData(data.d + kwargs) else data
  }

  /** A form as `strict_form` leaves it: only mapped columns, values clean.
      `strict_form` strips every string value, which is what the
      `TrimString` column codec does: the two differ only on `""`, which is
      its own strip. */
  predicate Sanitised(m: Model, f: Form) {
    f.Keys <= m.columns && forall k :: k in f ==> Types.TrimString(f[k]) == f[k]
  }

  /** `strict_form`: the merged input restricted to the mapped columns, with
      string values stripped. Unknown keys are dropped without an error. */
  function StrictForm(m: Model, data: Data, kwargs: Form): (r: Result<Form>)
    ensures r.Err? <==> data.NotDict?
    ensures r.Err? ==> r.error == TypeError
    ensures r.Ok? ==> r.value.Keys == Merge(data, kwargs).value.Keys * m.columns
    ensures r.Ok? ==> forall k :: k in r.value ==> r.value[k] == Types.TrimString(Merge(data, kwargs).value[k])
  {
    match Merge(data, kwargs)
    case Err(e) => Err(e)
    case Ok(merged) => Ok(map k | k in merged.Keys * m.columns :: Types.TrimString(merged[k]))
  }

  lemma StrictFormSanitised(m: Model, data: Data, kwargs: Form)
    requires !data.NotDict?
    ensures Sanitised(m, StrictForm(m, data, kwargs).value)
  {
    var f := StrictForm(m, data, kwargs).value;
    forall k | k in f
      ensures Types.TrimString(f[k]) == f[k]
    {
      Types.TrimStringIdempotent(Merge(data, kwargs).value[k]);
    }
  }

  /** The forms `strict_form` returns unchanged, whether passed as the dict
      or as keyword arguments, are exactly the sanitised ones. */
  lemma StrictFormFixedPoint(m: Model, f: Form)
    ensures StrictForm(m, DictData(f), map[]) == Ok(f) <==> Sanitised(m, f)
    ensures StrictForm(m, NoData, f) == Ok(f) <==> Sanitised(m, f)
  {
    if Sanitised(m, f) {
      assert StrictForm(m, DictData(f), map[]).value == f;
      assert StrictForm(m, NoData, f).value == f;
    }
    if StrictForm(m, NoData, f) == Ok(f) {
      StrictFormSanitised(m, NoData, f);
    }
    if StrictForm(m, DictData(f), map[]) == Ok(f) {
      StrictFormSanitised(m, DictData(f), map[]);
    }
  }

  /** Sanitising a sanitised form again changes nothing. */
  lemma StrictFormIdempotent(m: Model, data: Data, kwargs: Form)
    requires !data.NotDict?
    ensures var f := StrictForm(m, data, kwargs).value;
      StrictForm(m, DictData(f), map[]) == Ok(f)
  {
    StrictFormSanitised(m, data, kwargs);
    StrictFormFixedPoint(m, StrictForm(m, data, kwargs).value);
  }

  // ---------------------------------------------------------------------------
  // update
  // ---------------------------------------------------------------------------

  /** The keys of the form `update` may assign. */
  predicate Assignable(m: Model, force: bool, k: string) {
    force || k !in ImmutableKeys(m)
  }

  /** The `setattr` loop of `update`: every assignable key of `data` is set
      on `r`; every other attribute keeps its value, and stays unset when it
      was. */
  function Assign(m: Model, r: Record, data: Form, force: bool): (u: Record)
    ensures forall k :: k in data && Assignable(m, force, k) ==> k in u && u[k] == data[k]
    ensures forall k :: !(k in data && Assignable(m, force, k)) ==>
      (k in u <==> k in r) && (k in r ==> u[k] == r[k])
  {
    map k | k in r.Keys + data.Keys && (k in r || Assignable(m, force, k)) ::
      if k in data && Assignable(m, force, k) then data[k] else r[k]
  }

  /** `update(form, force, **kwargs)`: sanitise the input and assign each
      key of it, skipping the primary keys unless `force` is set. */
  function Update(m: Model, r: Record, form: Data, force: bool, kwargs: Form): (u: Result<Record>)
    ensures u.Err? <==> form.NotDict?
    ensures u.Err? ==> u.error == TypeError
  {
    match StrictForm(m, form, kwargs)
    case Err(e) => Err(e)
    case Ok(data) => Ok(Assign(m, r, data, force))
  }

  /** Without `force`, no primary-key attribute changes. */
  lemma UpdateKeepsKeys(m: Model, r: Record, form: Data, kwargs: Form, k: string)
    requires !form.NotDict? && k in ImmutableKeys(m)
    ensures var u := Update(m, r, form, false, kwargs).value;
      (k in u <==> k in r) && Field(u, k) == Field(r, k)
  {
  }

  /** Every assignable key of the sanitised form gets the form's value. */
  lemma UpdateAssigns(m: Model, r: Record, form: Data, force: bool, kwargs: Form, k: string)
    requires !form.NotDict?
    requires k in StrictForm(m, form, kwargs).value && Assignable(m, force, k)
    ensures Field(Update(m, r, form, force, kwargs).value, k) == StrictForm(m, form, kwargs).value[k]
  {
  }

  /** Attributes the sanitised form does not name are left as they are. */
  lemma UpdateLeavesRest(m: Model, r: Record, form: Data, force: bool, kwargs: Form, k: string)
    requires !form.NotDict?
    requires k !in StrictForm(m, form, kwargs).value
    ensures var u := Update(m, r, form, force, kwargs).value;
      (k in u <==> k in r) && Field(u, k) == Field(r, k)
  {
  }

  /** Applying the same update twice is applying it once. */
  lemma UpdateIdempotent(m: Model, r: Record, form: Data, force: bool, kwargs: Form)
    requires !form.NotDict?
    ensures var u := Update(m, r, form, force, kwargs).value;
      Update(m, u, form, force, kwargs) == Ok(u)
  {
    var data := StrictForm(m, form, kwargs).value;
    var u := Assign(m, r, data, force);
    assert Assign(m, u, data, force) == u;
  }

  // ---------------------------------------------------------------------------
  // to_dict
  // ---------------------------------------------------------------------------

  /** `to_dict(**kwargs)`: `_type` is the class name, then every column with
      its current value, then the keyword arguments, each layer overriding
      the one before. */
  function ToDict(m: Model, r: Record, kwargs: Form): (d: map<string, Value>)
    ensures d.Keys == {"_type"} + m.columns + kwargs.Keys
    ensures forall k :: k in kwargs ==> d[k] == kwargs[k]
    ensures forall c :: c in m.columns && c !in kwargs ==> d[c] == Field(r, c)
    ensures "_type" !in m.columns && "_type" !in kwargs ==> d["_type"] == Str(m.name)
  {
    map["_type" := Str(m.name)] + (map c | c in m.columns :: Field(r, c)) + kwargs
  }

  /** Feeding `to_dict()` back through `strict_form` drops `_type` and gives
      the record's columns, cleaned; for a sanitised record holding every
      column that is the record itself. */
  lemma ToDictStrictForm(m: Model, r: Record)
    requires "_type" !in m.columns
    ensures StrictForm(m, DictData(ToDict(m, r, map[])), map[])
      == Ok(map c | c in m.columns :: Types.TrimString(Field(r, c)))
    ensures Sanitised(m, r) && r.Keys == m.columns ==>
      StrictForm(m, DictData(ToDict(m, r, map[])), map[]) == Ok(r)
  {
    var f := StrictForm(m, DictData(ToDict(m, r, map[])), map[]).value;
    assert f == map c | c in m.columns :: Types.TrimString(Field(r, c));
    if Sanitised(m, r) && r.Keys == m.columns {
      assert f == r;
    }
  }

  // ---------------------------------------------------------------------------
  // Queries: filter_by, get_or_none, insert, upsert_one, getOr404
  // ---------------------------------------------------------------------------

  /** `filter_by(**cond)` keeps a row when every named attribute equals the
      given value: the row's attributes, read at the condition's keys, are
      the condition. */
  predicate Matches(r: Record, cond: Form)
    ensures Matches(r, cond) <==> (map k | k in cond :: Field(r, k)) == cond
  {
    forall k :: k in cond ==> Field(r, k) == cond[k]
  }

  /** The positions of the rows from `i` on that match, in table order. */
  function MatchesFrom(t: Table, cond: Form, i: nat): (ix: seq<nat>)
    requires i <= |t|
    ensures forall a :: 0 <= a < |ix| ==> i <= ix[a] < |t|
    ensures forall j :: j in ix <==> i <= j < |t| && Matches(t[j], cond)
    ensures forall a, b :: 0 <= a < b < |ix| ==> ix[a] < ix[b]
    decreases |t| - i
  {
    if i == |t| then []
    else
      var rest := MatchesFrom(t, cond, i + 1);
      if Matches(t[i], cond) then [i] + rest else rest
  }

  function MatchIndices(t: Table, cond: Form): (ix: seq<nat>)
    ensures forall a :: 0 <= a < |ix| ==> ix[a] < |t|
    ensures forall j :: j in ix <==> 0 <= j < |t| && Matches(t[j], cond)
    ensures forall a, b :: 0 <= a < b < |ix| ==> ix[a] < ix[b]
  {
    MatchesFrom(t, cond, 0)
  }

  /** `filter_by(condition, **kws)`: the matching rows, in table order. */
  function FilterBy(m: Model, t: Table, condition: Data, kws: Form): (r: Result<seq<Record>>)
    ensures r.Err? <==> condition.NotDict?
  {
    match StrictForm(m, condition, kws)
    case Err(e) => Err(e)
    case Ok(cond) =>
      var ix := MatchIndices(t, cond);
      Ok(seq(|ix|, j requires 0 <= j < |ix| => t[ix[j]]))
  }

  /** Every row `filter_by` returns matches, and it returns one per matching
      row: the `j`-th result is the row at the `j`-th matching position, so
      equal rows that both match are both returned. */
  lemma FilterByMatches(m: Model, t: Table, condition: Data, kws: Form)
    requires !condition.NotDict?
    ensures var cond, rs := StrictForm(m, condition, kws).value, FilterBy(m, t, condition, kws).value;
      && (forall j :: 0 <= j < |rs| ==> Matches(rs[j], cond))
      && (forall i :: 0 <= i < |t| && Matches(t[i], cond) ==> t[i] in rs)
      && |rs| == |MatchIndices(t, cond)|
      && (forall j :: 0 <= j < |rs| ==> rs[j] == t[MatchIndices(t, cond)[j]])
  {
    var cond := StrictForm(m, condition, kws).value;
    var ix := MatchIndices(t, cond);
    var rs := FilterBy(m, t, condition, kws).value;
    forall i | 0 <= i < |t| && Matches(t[i], cond)
      ensures t[i] in rs
    {
      var j :| 0 <= j < |ix| && ix[j] == i;
      assert rs[j] == t[i];
    }
  }

  /** `one_or_none()` over the matching positions. */
  function OneOrNone(ix: seq<nat>): (r: Result<Option<nat>>)
    ensures r == Ok(None) <==> ix == []
    ensures r.Ok? && r.value.Some? <==> |ix| == 1
    ensures r.Ok? && r.value.Some? ==> r.value.value == ix[0]
    ensures r.Err? <==> |ix| > 1
    ensures r.Err? ==> r.error == MultipleResultsFound
  {
    if ix == [] then Ok(None)
    else if |ix| == 1 then Ok(Some(ix[0]))
    else Err(MultipleResultsFound)
  }

  /** The condition `get_or_none` filters by. */
  function Condition(m: Model, condition: Data, kws: Form): Form
    requires !condition.NotDict?
  {
    StrictForm(m, condition, kws).value
  }

  /** Exactly one row matches, at position `i`. */
  predicate OnlyMatch(t: Table, cond: Form, i: nat) {
    && i < |t| && Matches(t[i], cond)
    && forall j :: 0 <= j < |t| && Matches(t[j], cond) ==> j == i
  }

  predicate NoMatch(t: Table, cond: Form) {
    forall j :: 0 <= j < |t| ==> !Matches(t[j], cond)
  }

  /** `get_or_none(condition, **kws)`: the position of the one matching row,
      `None` when no row matches, `MultipleResultsFound` when several do. */
  function GetOrNone(m: Model, t: Table, condition: Data, kws: Form): (r: Result<Option<nat>>)
    ensures condition.NotDict? <==> r == Err(TypeError)
    ensures !condition.NotDict? ==> var cond := Condition(m, condition, kws);
      && (r == Ok(None) <==> NoMatch(t, cond))
      && (forall i: nat :: r == Ok(Some(i)) <==> OnlyMatch(t, cond, i))
      && (r == Err(MultipleResultsFound) <==>
            exists a, b :: 0 <= a < b < |t| && Matches(t[a], cond) && Matches(t[b], cond))
  {
    match StrictForm(m, condition, kws)
    case Err(e) => Err(e)
    case Ok(cond) =>
      var ix := MatchIndices(t, cond);
      assert ix != [] ==> ix[0] in ix;
      assert |ix| > 1 ==> ix[1] in ix;
      OneOrNone(ix)
  }

  /** `insert(data, **kwargs)`: a new row built from the sanitised input is
      appended; the result is its position. Values the database would fill
      in (defaults, generated keys) are not modelled. */
  function Insert(m: Model, t: Table, data: Data, kwargs: Form): (r: Result<(Table, nat)>)
    ensures r.Err? <==> data.NotDict?
    ensures r.Ok? ==> var (t2, i) := r.value;
      t2 == t + [StrictForm(m, data, kwargs).value] && i == |t|
  {
    match StrictForm(m, data, kwargs)
    case Err(e) => Err(e)
    case Ok(form) => Ok((t + [form], |t|))
  }

  /** `upsert_one(condition, **updated_kws)`: the row `get_or_none(condition)`
      finds is updated with the keyword arguments (primary keys protected)
      and kept at its position; when there is none, a row built from the
      condition merged with the keyword arguments is inserted. */
  function UpsertOne(m: Model, t: Table, condition: Data, updated: Form): (r: Result<(Table, nat)>)
    ensures r.Ok? ==> r.value.1 < |r.value.0|
  {
    match GetOrNone(m, t, condition, map[])
    case Err(e) => Err(e)
    case Ok(Some(i)) => Ok((t[i := Update(m, t[i], DictData(updated), false, map[]).value], i))
    case Ok(None) => Insert(m, t, condition, updated)
  }

  /** When one row matches, it is the one updated, in place; the other rows
      and the table's length do not change. */
  lemma UpsertOneUpdates(m: Model, t: Table, condition: Data, updated: Form, i: nat)
    requires !condition.NotDict? && OnlyMatch(t, Condition(m, condition, map[]), i)
    ensures var r := UpsertOne(m, t, condition, updated);
      && r.Ok? && r.value.1 == i && |r.value.0| == |t|
      && r.value.0[i] == Update(m, t[i], DictData(updated), false, map[]).value
      && (forall j :: 0 <= j < |t| && j != i ==> r.value.0[j] == t[j])
  {
  }

  /** When no row matches, the condition merged with the keyword arguments
      is inserted as a new last row. */
  lemma UpsertOneInserts(m: Model, t: Table, condition: Data, updated: Form)
    requires !condition.NotDict? && NoMatch(t, Condition(m, condition, map[]))
    ensures UpsertOne(m, t, condition, updated)
      == Ok((t + [StrictForm(m, condition, updated).value], |t|))
  {
  }

  /** A condition that is not a dict or `None`, or one several rows match,
      makes `upsert_one` fail without touching the table. */
  lemma UpsertOneFails(m: Model, t: Table, condition: Data, updated: Form)
    ensures condition.NotDict? ==> UpsertOne(m, t, condition, updated) == Err(TypeError)
    ensures !condition.NotDict? ==>
      ((exists a, b :: 0 <= a < b < |t| && Matches(t[a], Condition(m, condition, map[]))
                                        && Matches(t[b], Condition(m, condition, map[])))
       <==> UpsertOne(m, t, condition, updated) == Err(MultipleResultsFound))
  {
  }

  /** The caller's `condition` after `upsert_one`. On the insert path
      `insert(condition, **updated_kws)` hands it to `strict_form`, whose
      `data.update(**kwargs)` merges the keyword arguments into it; the
      lookup and the update path pass no keyword arguments along with it. */
  function UpsertOneCaller(m: Model, t: Table, condition: Data, updated: Form): (r: Data)
    ensures GetOrNone(m, t, condition, map[]) == Ok(None) ==> r == CallerData(condition, updated)
    ensures GetOrNone(m, t, condition, map[]) != Ok(None) ==> r == condition
  {
    match GetOrNone(m, t, condition, map[])
    case Ok(None) => CallerData(condition, updated)
    case _ => condition
  }

  /** After an insert, a dict passed as `condition` describes the new row:
      sanitising it gives exactly what was inserted. */
  lemma {:induction false} UpsertOneCallerDescribesRow(m: Model, t: Table, condition: Data, updated: Form)
    requires condition.DictData? && GetOrNone(m, t, condition, map[]) == Ok(None)
    ensures var (t2, i) := UpsertOne(m, t, condition, updated).value;
      StrictForm(m, UpsertOneCaller(m, t, condition, updated), map[]) == Ok(t2[i])
  {
    var c := UpsertOneCaller(m, t, condition, updated);
    assert Merge(c, map[]) == Merge(condition, updated) by {
      assert c.d + map[] == c.d;
    }
  }

  /** `getOr404(**kws)`: the position of the one matching row; `NotFound`
      when no row matches. Several matches still raise
      `MultipleResultsFound`. */
  function GetOr404(m: Model, t: Table, kws: Form): (r: Result<nat>)
    ensures forall i: nat :: r == Ok(i) <==> OnlyMatch(t, Condition(m, DictData(kws), map[]), i)
    ensures r == Err(NotFound) <==> NoMatch(t, Condition(m, DictData(kws), map[]))
    ensures r.Err? ==> r.error != TypeError
  {
    match GetOrNone(m, t, DictData(kws), map[])
    case Err(e) => Err(e)
    case Ok(None) => Err(NotFound)
    case Ok(Some(i)) => Ok(i)
  }

  /** Assigning a form that agrees with `cond` on their common keys keeps a
      matching row matching. */
  lemma AssignMatches(m: Model, r: Record, up: Form, force: bool, cond: Form)
    requires Matches(r, cond)
    requires forall k :: k in cond && k in up ==> up[k] == cond[k]
    ensures Matches(Assign(m, r, up, force), cond)
  {
  }

  /** Assigning values a row already holds changes nothing. */
  lemma AssignNoop(m: Model, r: Record, up: Form, force: bool)
    requires forall k :: k in up && Assignable(m, force, k) ==> k in r && r[k] == up[k]
    ensures Assign(m, r, up, force) == r
  {
  }

  /** The condition and the keyword arguments agree wherever both name a
      column. */
  predicate Agree(m: Model, condition: Data, updated: Form)
    requires !condition.NotDict?
  {
    var cond, up := Condition(m, condition, map[]), StrictForm(m, DictData(updated), map[]).value;
    forall k :: k in cond && k in up ==> up[k] == cond[k]
  }

  /** `upsert_one` called again with equal arguments changes nothing and
      finds the same row, provided the keyword arguments do not contradict
      the condition (otherwise the updated or inserted row no longer matches
      it). */
  lemma UpsertOneIdempotent(m: Model, t: Table, condition: Data, updated: Form)
    requires !condition.NotDict? && Agree(m, condition, updated)
    requires UpsertOne(m, t, condition, updated).Ok?
    ensures var (t2, i) := UpsertOne(m, t, condition, updated).value;
      UpsertOne(m, t2, condition, updated) == Ok((t2, i))
  {
    var cond := Condition(m, condition, map[]);
    var up := StrictForm(m, DictData(updated), map[]).value;
    var (t2, i) := UpsertOne(m, t, condition, updated).value;
    match GetOrNone(m, t, condition, map[])
    case Ok(Some(j)) =>
      var u := Assign(m, t[j], up, false);
      assert t2 == t[j := u];
      AssignMatches(m, t[j], up, false, cond);
      assert OnlyMatch(t2, cond, j);
      AssignNoop(m, u, up, false);
      assert t2[j := Assign(m, t2[j], up, false)] == t2;
    case Ok(None) =>
      var f := StrictForm(m, condition, updated).value;
      assert t2 == t + [f] && i == |t|;
      assert Matches(f, cond);
      assert t2[i] == f;
      assert OnlyMatch(t2, cond, i);
      AssignNoop(m, f, up, false);
      assert t2[i := Assign(m, t2[i], up, false)] == t2;
  }

  // ---------------------------------------------------------------------------
  // The scenario of the `User` test
  // ---------------------------------------------------------------------------

  function User(): Model {
    Model("User", {"id", "name", "email"}, ["id"])
  }

  /** When the merged input is already sanitised, `strict_form` returns it. */
  lemma StrictFormOfSanitised(m: Model, data: Data, kwargs: Form)
    requires !data.NotDict? && Sanitised(m, Merge(data, kwargs).value)
    ensures StrictForm(m, data, kwargs) == Ok(Merge(data, kwargs).value)
  {
    var merged := Merge(data, kwargs).value;
    var f := StrictForm(m, data, kwargs).value;
    assert f.Keys == merged.Keys;
    assert forall k :: k in f ==> f[k] == merged[k];
    assert f == merged;
    assert StrictForm(m, data, kwargs) == Ok(f);
  }

  /** Assigning one assignable key is a single map update. */
  lemma AssignOne(m: Model, r: Record, k: string, v: Value, force: bool)
    requires Assignable(m, force, k)
    ensures Assign(m, r, map[k := v], force) == r[k := v]
  {
  }

  lemma UserKeys()
    ensures ImmutableKeys(User()) == {"id"}
  {
    assert User().primaryKeys[0] == "id";
  }

  /** `User.insert(form, email=e1)` with `form = {"name": name}` on an empty
      table: the row is at position 0, and `form` now holds the e-mail
      address as well. */
  lemma UserInsert(name: string, e1: string)
    requires Trimmed(name) && Trimmed(e1)
    ensures var form, kw := map["name" := Str(name)], map["email" := Str(e1)];
      && Insert(User(), [], DictData(form), kw) == Ok(([map["name" := Str(name), "email" := Str(e1)]], 0))
      && CallerData(DictData(form), kw) == DictData(map["name" := Str(name), "email" := Str(e1)])
  {
    StripOfTrimmed(name);
    StripOfTrimmed(e1);
    var form, kw := map["name" := Str(name)], map["email" := Str(e1)];
    var u := map["name" := Str(name), "email" := Str(e1)];
    assert form + kw == u;
    assert Sanitised(User(), u);
    StrictFormOfSanitised(User(), DictData(form), kw);
    assert Merge(DictData(form), kw).value == u;
    assert StrictForm(User(), DictData(form), kw) == Ok(u);
    assert [] + [u] == [u];
    assert Insert(User(), [], DictData(form), kw) == Ok(([u], 0));
    assert CallerData(DictData(form), kw) == DictData(u);
  }

  /** `u.update({"email": e2})` on the row `{"name": name, "email": e1}`
      replaces the address. */
  lemma UserUpdate(name: string, e1: string, e2: string)
    requires Trimmed(e2)
    ensures var u1 := map["name" := Str(name), "email" := Str(e1)];
      Update(User(), u1, DictData(map["email" := Str(e2)]), false, map[])
        == Ok(map["name" := Str(name), "email" := Str(e2)])
  {
    StripOfTrimmed(e2);
    var u1 := map["name" := Str(name), "email" := Str(e1)];
    var up := map["email" := Str(e2)];
    assert up + map[] == up;
    assert Sanitised(User(), up);
    StrictFormOfSanitised(User(), DictData(up), map[]);
    assert Merge(DictData(up), map[]).value == up;
    UserKeys();
    AssignOne(User(), u1, "email", Str(e2), false);
    assert u1["email" := Str(e2)] == map["name" := Str(name), "email" := Str(e2)];
  }

  /** `User.upsert_one(form, email=e2)` with the mutated `form`: the row
      inserted before is the one found and updated, at the same position. */
  lemma UserUpsert(name: string, e1: string, e2: string)
    requires Trimmed(name) && Trimmed(e1) && Trimmed(e2)
    ensures var u1 := map["name" := Str(name), "email" := Str(e1)];
      UpsertOne(User(), [u1], DictData(u1), map["email" := Str(e2)])
        == Ok(([map["name" := Str(name), "email" := Str(e2)]], 0))
  {
    StripOfTrimmed(name);
    StripOfTrimmed(e1);
    StripOfTrimmed(e2);
    var u1 := map["name" := Str(name), "email" := Str(e1)];
    var up := map["email" := Str(e2)];
    assert u1 + map[] == u1;
    assert Sanitised(User(), u1);
    StrictFormOfSanitised(User(), DictData(u1), map[]);
    assert Merge(DictData(u1), map[]).value == u1;
    assert Condition(User(), DictData(u1), map[]) == u1;
    assert Matches(u1, u1);
    assert OnlyMatch([u1], u1, 0);
    UpsertOneUpdates(User(), [u1], DictData(u1), up, 0);
    UserUpdate(name, e1, e2);
    var u2 := map["name" := Str(name), "email" := Str(e2)];
    var r := UpsertOne(User(), [u1], DictData(u1), up);
    assert r.value.0 == [u2];
  }

  /** The test with the strings it uses: `u1.id == u2.id` because both calls
      return row 0, which now holds the second address. */
  lemma UserScenario()
    ensures var form, kw := DictData(map["name" := Str("dev")]), map["email" := Str("dev@pypi.com")];
      var ins := Insert(User(), [], form, kw);
      && ins.Ok?
      && var ups := UpsertOne(User(), ins.value.0, CallerData(form, kw), map["email" := Str("dev@oncode.cc")]);
      && ups.Ok? && ups.value.1 == ins.value.1
      && ups.value.0 == [map["name" := Str("dev"), "email" := Str("dev@oncode.cc")]]
  {
    UserInsert("dev", "dev@pypi.com");
    UserUpsert("dev", "dev@pypi.com", "dev@oncode.cc");
  }
}

=== FILE: regex.dfy ===
/**
 The string case helpers of `regex.py`: `alphanumeric`, `simple_case`,
 `snake_case` and `camel_case` (`title_case` lives in module RegexTitle).
 Each helper is one `re.sub` over ASCII character classes; each is written
 here as a recursive function over `string` that scans the way the regex
 engine does, and is then related to an independent description of its result.
 */
module Regex {
  import opened Text

  // ---------------------------------------------------------------------------
  // alphanumeric(s, sep): strip surrounding whitespace, then replace every
  // maximal run of characters outside [0-9a-zA-Z] by `sep`.
  // ---------------------------------------------------------------------------

  /** End of the run of characters outside `[0-9a-zA-Z]` that starts at `i`. */
  function RunEnd(t: string, i: nat): (j: nat)
    requires i <= |t|
    ensures i <= j <= |t|
    ensures forall k :: i <= k < j ==> !IsAlnum(t[k])
    ensures j == |t| || IsAlnum(t[j])
    decreases |t| - i
  {
    if i == |t| || IsAlnum(t[i]) then i else RunEnd(t, i + 1)
  }

  /** The run end is the only position with the two properties above. */
  lemma {:induction false} RunEndUnique(t: string, i: nat, m: nat)
    requires i <= m <= |t|
    requires forall k :: i <= k < m ==> !IsAlnum(t[k])
    requires m == |t| || IsAlnum(t[m])
    ensures RunEnd(t, i) == m
    decreases m - i
  {
    if i < m {
      RunEndUnique(t, i + 1, m);
    }
  }

  /** The substitution of `alphanumeric`, scanning from position `i`: an
      alphanumeric character is copied, a maximal run of the others becomes
      one copy of `sep`. */
  function CollapseFrom(t: string, i: nat, sep: string): (r: string)
    requires i <= |t|
    ensures forall k :: 0 <= k < |r| ==> IsAlnum(r[k]) || r[k] in sep
    ensures i < |t| && IsAlnum(t[i]) ==> r != [] && r[0] == t[i]
    decreases |t| - i
  {
    if i == |t| then []
    else if IsAlnum(t[i]) then [t[i]] + CollapseFrom(t, i + 1, sep)
    else sep + CollapseFrom(t, RunEnd(t, i), sep)
  }

  /** A separator `re.sub` inserts as it is written. `sep` is a replacement
      template, whose backslash escapes (`\\`, `\n`, `\g<0>`, ...) Python
      expands first, and a lone backslash is an error; a separator without
      a backslash is copied literally. */
  predicate LiteralSep(sep: string) {
    '\\' !in sep
  }

  function Collapse(t: string, sep: string): (r: string)
    requires LiteralSep(sep)
    ensures forall k :: 0 <= k < |r| ==> IsAlnum(r[k]) || r[k] in sep
    ensures t != [] && IsAlnum(t[0]) ==> r != [] && r[0] == t[0]
  {
    CollapseFrom(t, 0, sep)
  }

  /** `alphanumeric(s, sep)`: the stripped input with every maximal run
      outside `[0-9a-zA-Z]` replaced by one copy of `sep`. */
  function Alphanumeric(s: string, sep: string): (r: string)
    requires LiteralSep(sep)
    ensures forall k :: 0 <= k < |r| ==> IsAlnum(r[k]) || r[k] in sep
    ensures Strip(s) != [] && IsAlnum(Strip(s)[0]) ==> r != [] && r[0] == Strip(s)[0]
  {
    Collapse(Strip(s), sep)
  }

  /** A nonempty run of non-alphanumerics collapses to exactly one `sep`. */
  lemma CollapseRun(t: string, sep: string)
    requires LiteralSep(sep)
    requires t != []
    requires forall i :: 0 <= i < |t| ==> !IsAlnum(t[i])
    ensures Collapse(t, sep) == sep
  {
    assert !IsAlnum(t[0]);
    RunEndUnique(t, 0, |t|);
    assert Collapse(t, sep) == sep + CollapseFrom(t, |t|, sep);
  }

  lemma {:induction false} RunEndShift(a: string, b: string, j: nat)
    requires j <= |b|
    ensures RunEnd(a + b, |a| + j) == |a| + RunEnd(b, j)
    decreases |b| - j
  {
    if j < |b| {
      assert (a + b)[|a| + j] == b[j];
      RunEndShift(a, b, j + 1);
    }
  }

  lemma {:induction false} CollapseFromShift(a: string, b: string, j: nat, sep: string)
    requires j <= |b|
    ensures CollapseFrom(a + b, |a| + j, sep) == CollapseFrom(b, j, sep)
    decreases |b| - j
  {
    if j < |b| {
      assert (a + b)[|a| + j] == b[j];
      if IsAlnum(b[j]) {
        CollapseFromShift(a, b, j + 1, sep);
      } else {
        RunEndShift(a, b, j);
        CollapseFromShift(a, b, RunEnd(b, j), sep);
      }
    }
  }

  /** A cut the run from `i` does not cross: `a` ends with an alphanumeric
      character or `b` starts with one. */
  predicate CutOk(a: string, b: string) {
    a == [] || IsAlnum(a[|a| - 1]) || b == [] || IsAlnum(b[0])
  }

  lemma RunEndPrefix(a: string, b: string, i: nat)
    requires i < |a| && CutOk(a, b)
    ensures RunEnd(a + b, i) == RunEnd(a, i)
  {
    var m := RunEnd(a, i);
    if m < |a| {
      assert (a + b)[m] == a[m];
    } else if b != [] {
      assert (a + b)[m] == b[0];
    }
    RunEndUnique(a + b, i, m);
  }

  /** One step of the scan from `i`, the same in `a + b` as in `a`: it
      emits `x` and resumes at `k`. */
  lemma CollapseFromStep(a: string, b: string, i: nat, sep: string) returns (k: nat, x: string)
    requires i < |a| && CutOk(a, b)
    ensures i < k <= |a|
    ensures CollapseFrom(a + b, i, sep) == x + CollapseFrom(a + b, k, sep)
    ensures CollapseFrom(a, i, sep) == x + CollapseFrom(a, k, sep)
  {
    assert (a + b)[i] == a[i];
    if IsAlnum(a[i]) {
      k, x := i + 1, [a[i]];
    } else {
      RunEndPrefix(a, b, i);
      k, x := RunEnd(a, i), sep;
    }
  }

  lemma {:induction false} CollapseFromSplit(a: string, b: string, i: nat, sep: string)
    requires i <= |a|
    requires CutOk(a, b)
    ensures CollapseFrom(a + b, i, sep) == CollapseFrom(a, i, sep) + CollapseFrom(b, 0, sep)
    decreases |a| - i
  {
    if i == |a| {
      CollapseFromShift(a, b, 0, sep);
    } else {
      var k, x := CollapseFromStep(a, b, i, sep);
      CollapseFromSplit(a, b, k, sep);
      assert x + (CollapseFrom(a, k, sep) + CollapseFrom(b, 0, sep))
          == (x + CollapseFrom(a, k, sep)) + CollapseFrom(b, 0, sep);
    }
  }

  /** Cutting next to an alphanumeric character (or at either end) splits
      the output in the same place. */
  lemma CollapseAppend(a: string, b: string, sep: string)
    requires LiteralSep(sep)
    requires CutOk(a, b)
    ensures Collapse(a + b, sep) == Collapse(a, sep) + Collapse(b, sep)
  {
    CollapseFromSplit(a, b, 0, sep);
  }

  /** An alphanumeric character is a boundary no run crosses: `Collapse`
      acts on each side of it separately. Together with `CollapseRun` and
      `Collapse([]) == []` this pins `Collapse` down on every input. */
  lemma CollapseAround(a: string, c: char, b: string, sep: string)
    requires LiteralSep(sep)
    requires IsAlnum(c)
    ensures Collapse(a + [c] + b, sep) == Collapse(a, sep) + [c] + Collapse(b, sep)
  {
    CollapseAppend(a + [c], b, sep);
    CollapseAppend(a, [c], sep);
    assert Collapse([c], sep) == [c] + CollapseFrom([c], 1, sep);
  }

  /** With sep `"_"` the output has only `[0-9a-zA-Z_]`. */
  lemma AlphanumericChars(s: string)
    ensures forall i :: 0 <= i < |Alphanumeric(s, "_")| ==>
      IsAlnum(Alphanumeric(s, "_")[i]) || Alphanumeric(s, "_")[i] == '_'
  {
  }

  predicate NoAdjacent(r: string, d: char) {
    forall i :: 0 <= i < |r| - 1 ==> !(r[i] == d && r[i + 1] == d)
  }

  lemma {:induction false} CollapseFromNoAdjacent(t: string, i: nat, d: char)
    requires i <= |t| && !IsAlnum(d)
    ensures NoAdjacent(CollapseFrom(t, i, [d]), d)
    decreases |t| - i
  {
    if i < |t| {
      var r := CollapseFrom(t, i, [d]);
      var k := if IsAlnum(t[i]) then i + 1 else RunEnd(t, i);
      var w := CollapseFrom(t, k, [d]);
      CollapseFromNoAdjacent(t, k, d);
      assert r == [r[0]] + w;
      assert forall j :: 0 < j < |r| ==> r[j] == w[j - 1];
    }
  }

  /** No two separators end up next to each other: between two runs there is
      always an alphanumeric character. */
  lemma CollapseNoAdjacent(t: string, d: char)
    requires !IsAlnum(d) && d != '\\'
    ensures forall i :: 0 <= i < |Collapse(t, [d])| - 1 ==>
      !(Collapse(t, [d])[i] == d && Collapse(t, [d])[i + 1] == d)
  {
    CollapseFromNoAdjacent(t, 0, d);
  }

  lemma AlphanumericNoDoubleUnderscore(s: string)
    ensures forall i :: 0 <= i < |Alphanumeric(s, "_")| - 1 ==>
      !(Alphanumeric(s, "_")[i] == '_' && Alphanumeric(s, "_")[i + 1] == '_')
  {
    CollapseNoAdjacent(Strip(s), '_');
  }

  /** The characters of `t` in `[0-9a-zA-Z]`, in order. */
  function AlnumOf(t: string): string {
    if t == [] then [] else (if IsAlnum(t[0]) then [t[0]] else []) + AlnumOf(t[1..])
  }

  lemma {:induction false} AlnumOfAppend(a: string, b: string)
    ensures AlnumOf(a + b) == AlnumOf(a) + AlnumOf(b)
  {
    if a == [] {
      assert a + b == b;
    } else {
      assert (a + b)[0] == a[0];
      assert (a + b)[1..] == a[1..] + b;
      AlnumOfAppend(a[1..], b);
    }
  }

  lemma {:induction false} AlnumOfNone(t: string)
    requires forall i :: 0 <= i < |t| ==> !IsAlnum(t[i])
    ensures AlnumOf(t) == []
  {
    if t != [] {
      AlnumOfNone(t[1..]);
    }
  }

  lemma {:induction false} CollapseFromKeepsAlnum(t: string, i: nat, sep: string)
    requires i <= |t|
    requires forall k :: 0 <= k < |sep| ==> !IsAlnum(sep[k])
    ensures AlnumOf(CollapseFrom(t, i, sep)) == AlnumOf(t[i..])
    decreases |t| - i
  {
    if i < |t| {
      var k := if IsAlnum(t[i]) then i + 1 else RunEnd(t, i);
      var x := if IsAlnum(t[i]) then [t[i]] else sep;
      CollapseFromKeepsAlnum(t, k, sep);
      AlnumOfAppend(x, CollapseFrom(t, k, sep));
      assert t[i..] == t[i..k] + t[k..];
      AlnumOfAppend(t[i..k], t[k..]);
      if IsAlnum(t[i]) {
        assert t[i..k] == [t[i]];
      } else {
        AlnumOfNone(sep);
        AlnumOfNone(t[i..k]);
      }
    }
  }

  /** A separator without alphanumerics adds none: the alphanumeric
      characters of the input are exactly those of the output, in order. */
  lemma CollapseKeepsAlnum(t: string, sep: string)
    requires LiteralSep(sep)
    requires forall i :: 0 <= i < |sep| ==> !IsAlnum(sep[i])
    ensures AlnumOf(Collapse(t, sep)) == AlnumOf(t)
  {
    CollapseFromKeepsAlnum(t, 0, sep);
    assert t[0..] == t;
  }

  lemma AlphanumericKeepsAlnum(s: string, sep: string)
    requires LiteralSep(sep)
    requires forall i :: 0 <= i < |sep| ==> !IsAlnum(sep[i])
    ensures AlnumOf(Alphanumeric(s, sep)) == AlnumOf(Strip(s))
  {
    CollapseKeepsAlnum(Strip(s), sep);
  }

  /** A nonempty run in front of text that starts with an alphanumeric
      character collapses on its own. */
  lemma CollapseRunThen(p: string, w: string, sep: string)
    requires LiteralSep(sep)
    requires p != [] && forall i :: 0 <= i < |p| ==> !IsAlnum(p[i])
    requires w == [] || IsAlnum(w[0])
    ensures Collapse(p + w, sep) == sep + Collapse(w, sep)
  {
    var t := p + w;
    assert |p| < |t| ==> t[|p|] == w[0];
    assert forall i :: 0 <= i < |p| ==> t[i] == p[i];
    RunEndUnique(t, 0, |p|);
    CollapseFromShift(p, w, 0, sep);
  }

  lemma {:induction false} CollapseFromIdempotent(t: string, i: nat, sep: string)
    requires LiteralSep(sep)
    requires i <= |t|
    requires forall k :: 0 <= k < |sep| ==> !IsAlnum(sep[k])
    ensures Collapse(CollapseFrom(t, i, sep), sep) == CollapseFrom(t, i, sep)
    decreases |t| - i
  {
    if i < |t| {
      if IsAlnum(t[i]) {
        var w := CollapseFrom(t, i + 1, sep);
        CollapseFromIdempotent(t, i + 1, sep);
        CollapseAround([], t[i], w, sep);
        assert [] + [t[i]] + w == [t[i]] + w;
      } else {
        var w := CollapseFrom(t, RunEnd(t, i), sep);
        CollapseFromIdempotent(t, RunEnd(t, i), sep);
        if sep == [] {
          assert sep + w == w;
        } else {
          CollapseRunThen(sep, w, sep);
        }
      }
    }
  }

  lemma CollapseIdempotent(t: string, sep: string)
    requires LiteralSep(sep)
    requires forall i :: 0 <= i < |sep| ==> !IsAlnum(sep[i])
    ensures Collapse(Collapse(t, sep), sep) == Collapse(t, sep)
  {
    CollapseFromIdempotent(t, 0, sep);
  }

  /** `alphanumeric` is idempotent for any separator made of characters that
      are neither alphanumeric nor whitespace, `"_"` (the default) included. */
  lemma AlphanumericIdempotent(s: string, sep: string)
    requires LiteralSep(sep)
    requires forall i :: 0 <= i < |sep| ==> !IsAlnum(sep[i]) && !IsSpace(sep[i])
    ensures Alphanumeric(Alphanumeric(s, sep), sep) == Alphanumeric(s, sep)
  {
    var r := Alphanumeric(s, sep);
    forall i | 0 <= i < |r|
      ensures !IsSpace(r[i])
    {
      if !IsAlnum(r[i]) {
        var k :| 0 <= k < |sep| && sep[k] == r[i];
      }
    }
    StripNoSpace(r);
    CollapseIdempotent(Strip(s), sep);
  }

  lemma {:induction false} CollapseFromAlnum(t: string, i: nat, sep: string)
    requires i <= |t|
    requires forall k :: 0 <= k < |t| ==> IsAlnum(t[k])
    ensures CollapseFrom(t, i, sep) == t[i..]
    decreases |t| - i
  {
    if i < |t| {
      CollapseFromAlnum(t, i + 1, sep);
      assert t[i..] == [t[i]] + t[i + 1..];
    }
  }

  /** A string of alphanumeric characters only is left as it is. */
  lemma CollapseAlnum(t: string, sep: string)
    requires LiteralSep(sep)
    requires forall i :: 0 <= i < |t| ==> IsAlnum(t[i])
    ensures Collapse(t, sep) == t
  {
    CollapseFromAlnum(t, 0, sep);
  }

  lemma AlphanumericOfAlnum(s: string, sep: string)
    requires LiteralSep(sep)
    requires forall i :: 0 <= i < |s| ==> IsAlnum(s[i])
    ensures Alphanumeric(s, sep) == s
  {
    assert NoSpace(s);
    StripNoSpace(s);
    CollapseAlnum(s, sep);
  }

  // ---------------------------------------------------------------------------
  // simple_case(s): delete every character outside [0-9a-zA-Z_.-].
  // ---------------------------------------------------------------------------

  /** The class `[0-9a-zA-Z_\-\.]`. */
  predicate IsSimple(c: char) {
    IsAlnum(c) || c == '_' || c == '-' || c == '.'
  }

  /** Deleting every maximal run outside the class deletes every such
      character, so the rewrite is a filter; this is the filter of the
      characters from position `i` on. */
  function SimpleFrom(s: string, i: nat): (r: string)
    requires i <= |s|
    ensures |r| <= |s| - i
    ensures forall k :: 0 <= k < |r| ==> IsSimple(r[k])
    decreases |s| - i
  {
    if i == |s| then [] else (if IsSimple(s[i]) then [s[i]] else []) + SimpleFrom(s, i + 1)
  }

  function SimpleCase(s: string): (r: string)
    ensures |r| <= |s|
    ensures forall k :: 0 <= k < |r| ==> IsSimple(r[k])
  {
    SimpleFrom(s, 0)
  }

  lemma {:induction false} SimpleFromShift(a: string, b: string, j: nat)
    requires j <= |b|
    ensures SimpleFrom(a + b, |a| + j) == SimpleFrom(b, j)
    decreases |b| - j
  {
    if j < |b| {
      assert (a + b)[|a| + j] == b[j];
      SimpleFromShift(a, b, j + 1);
    }
  }

  lemma {:induction false} SimpleFromSplit(a: string, b: string, i: nat)
    requires i <= |a|
    ensures SimpleFrom(a + b, i) == SimpleFrom(a, i) + SimpleFrom(b, 0)
    decreases |a| - i
  {
    if i == |a| {
      SimpleFromShift(a, b, 0);
    } else {
      var x := if IsSimple(a[i]) then [a[i]] else [];
      assert (a + b)[i] == a[i];
      assert SimpleFrom(a + b, i) == x + SimpleFrom(a + b, i + 1);
      SimpleFromSplit(a, b, i + 1);
      assert x + (SimpleFrom(a, i + 1) + SimpleFrom(b, 0)) == (x + SimpleFrom(a, i + 1)) + SimpleFrom(b, 0);
    }
  }

  /** `simple_case` distributes over concatenation, so it acts on each
      character independently. */
  lemma SimpleCaseAppend(a: string, b: string)
    ensures SimpleCase(a + b) == SimpleCase(a) + SimpleCase(b)
  {
    SimpleFromSplit(a, b, 0);
  }

  /** A string made only of allowed characters is left as it is. */
  lemma {:induction false} SimpleFromKeeps(s: string, i: nat)
    requires i <= |s|
    requires forall k :: 0 <= k < |s| ==> IsSimple(s[k])
    ensures SimpleFrom(s, i) == s[i..]
    decreases |s| - i
  {
    if i < |s| {
      SimpleFromKeeps(s, i + 1);
      assert s[i..] == [s[i]] + s[i + 1..];
    }
  }

  lemma SimpleCaseKeeps(s: string)
    requires forall k :: 0 <= k < |s| ==> IsSimple(s[k])
    ensures SimpleCase(s) == s
  {
    SimpleFromKeeps(s, 0);
  }

  lemma SimpleCaseIdempotent(s: string)
    ensures SimpleCase(SimpleCase(s)) == SimpleCase(s)
  {
    SimpleCaseKeeps(SimpleCase(s));
  }

  /** Each character kept from position `i` on is one of the input's, at a
      position no earlier than `i` plus its own index. */
  lemma {:induction false} SimpleFromSubsequence(s: string, i: nat, k: nat)
    requires i <= |s| && k < |SimpleFrom(s, i)|
    ensures exists j :: i + k <= j < |s| && s[j] == SimpleFrom(s, i)[k]
    decreases |s| - i
  {
    var head := if IsSimple(s[i]) then [s[i]] else [];
    assert SimpleFrom(s, i) == head + SimpleFrom(s, i + 1);
    if k < |head| {
      assert s[i] == SimpleFrom(s, i)[k];
    } else {
      SimpleFromSubsequence(s, i + 1, k - |head|);
    }
  }

  lemma SimpleCaseSubsequence(s: string, k: nat)
    requires k < |SimpleCase(s)|
    ensures exists j :: k <= j < |s| && s[j] == SimpleCase(s)[k]
  {
    SimpleFromSubsequence(s, 0, k);
  }

  // ---------------------------------------------------------------------------
  // snake_case(s): with t = alphanumeric(s, '_'), put '_' before every
  // upper-case letter of t that follows a lower-case letter or a digit, or
  // that is not the first character and is followed by a lower-case letter;
  // then lower-case the result.
  // Every match is one character and both lookarounds read `t` itself, so the
  // decision to insert '_' is a predicate of `t` and a position.
  // ---------------------------------------------------------------------------

  /** The pattern matches the upper-case letter at position `i` of `t`. */
  predicate UnderscoreBefore(t: string, i: nat)
    requires i < |t|
  {
    && IsUpper(t[i])
    && 0 < i
    && (IsLower(t[i - 1]) || IsDigit(t[i - 1]) || (i + 1 < |t| && IsLower(t[i + 1])))
  }

  /** How many of the first `n` positions of `t` get an underscore. */
  function Inserted(t: string, n: nat): (k: nat)
    requires n <= |t|
    ensures k <= n
  {
    if n == 0 then 0 else Inserted(t, n - 1) + (if UnderscoreBefore(t, n - 1) then 1 else 0)
  }

  /** What the substitution makes of character `i` of `t`. */
  function SnakePiece(t: string, i: nat): string
    requires i < |t|
  {
    if UnderscoreBefore(t, i) then ['_', t[i]] else [t[i]]
  }

  /** The substitution applied to the first `n` characters of `t`. */
  function SnakeRewrite(t: string, n: nat): (r: string)
    requires n <= |t|
    ensures |r| == n + Inserted(t, n)
  {
    if n == 0 then [] else SnakeRewrite(t, n - 1) + SnakePiece(t, n - 1)
  }

  /** `snake_case(s)`: the input reduced by `alphanumeric`, an underscore
      inserted before each position where `UnderscoreBefore` holds, and the
      whole lower-cased. `SnakeCaseAt` places every character. */
  function SnakeCase(s: string): (r: string)
    ensures var t := Alphanumeric(s, "_"); |r| == |t| + Inserted(t, |t|)
    ensures forall k :: 0 <= k < |r| ==> !IsUpper(r[k])
  {
    var t := Alphanumeric(s, "_");
    LowerAll(SnakeRewrite(t, |t|))
  }

  /** Rewriting more characters only appends to the output. */
  lemma {:induction false} SnakeRewritePrefix(t: string, m: nat, n: nat)
    requires m <= n <= |t|
    ensures SnakeRewrite(t, m) <= SnakeRewrite(t, n)
    decreases n - m
  {
    if m < n {
      SnakeRewritePrefix(t, m, n - 1);
    }
  }

  /** Where character `i` of `t` lands: after the `i` characters and the
      `Inserted(t, i)` underscores before it, preceded by an underscore of its
      own exactly when `UnderscoreBefore(t, i)`. */
  lemma SnakeRewriteAt(t: string, i: nat)
    requires i < |t|
    ensures var r, p := SnakeRewrite(t, |t|), i + Inserted(t, i);
      && (UnderscoreBefore(t, i) ==> p + 1 < |r| && r[p] == '_' && r[p + 1] == t[i])
      && (!UnderscoreBefore(t, i) ==> p < |r| && r[p] == t[i])
  {
    SnakeRewritePrefix(t, i + 1, |t|);
  }

  /** `snake_case` position by position. With `t = alphanumeric(s, '_')`:
      the output is `t` lower-cased with one underscore inserted before each
      position where `UnderscoreBefore` holds, and nothing else. */
  lemma SnakeCaseAt(s: string, i: nat)
    requires i < |Alphanumeric(s, "_")|
    ensures var t := Alphanumeric(s, "_");
      var r, p := SnakeCase(s), i + Inserted(t, i);
      && |r| == |t| + Inserted(t, |t|)
      && (UnderscoreBefore(t, i) ==> p + 1 < |r| && r[p] == '_' && r[p + 1] == ToLower(t[i]))
      && (!UnderscoreBefore(t, i) ==> p < |r| && r[p] == ToLower(t[i]))
  {
    SnakeRewriteAt(Alphanumeric(s, "_"), i);
  }

  /** Every character the rewrite emits is `'_'` or a character of `t`. */
  lemma {:induction false} SnakeRewriteChars(t: string, n: nat)
    requires n <= |t|
    ensures forall k :: 0 <= k < |SnakeRewrite(t, n)| ==>
      SnakeRewrite(t, n)[k] == '_' || SnakeRewrite(t, n)[k] in t
  {
    if n > 0 {
      SnakeRewriteChars(t, n - 1);
    }
  }

  predicate IsSnakeChar(c: char) {
    IsLower(c) || IsDigit(c) || c == '_'
  }

  /** The output uses only `[a-z0-9_]`. */
  lemma SnakeCaseChars(s: string)
    ensures forall k :: 0 <= k < |SnakeCase(s)| ==> IsSnakeChar(SnakeCase(s)[k])
  {
    var t := Alphanumeric(s, "_");
    var w := SnakeRewrite(t, |t|);
    SnakeRewriteChars(t, |t|);
    forall k | 0 <= k < |w|
      ensures IsAlnum(w[k]) || w[k] == '_'
    {
      if w[k] != '_' {
        var j :| 0 <= j < |t| && t[j] == w[k];
      }
    }
  }

  /** The same substitution read as a scan from position `i` to the end. */
  function SnakeFrom(t: string, i: nat): string
    requires i <= |t|
    decreases |t| - i
  {
    if i == |t| then [] else SnakePiece(t, i) + SnakeFrom(t, i + 1)
  }

  /** The first `n` characters rewritten, followed by the rest rewritten, is
      the whole rewrite. */
  lemma {:induction false} SnakeFromRewrite(t: string, n: nat)
    requires n <= |t|
    ensures SnakeFrom(t, 0) == SnakeRewrite(t, n) + SnakeFrom(t, n)
  {
    if n > 0 {
      SnakeFromRewrite(t, n - 1);
      var p, x := SnakeRewrite(t, n - 1), SnakePiece(t, n - 1);
      assert SnakeFrom(t, n - 1) == x + SnakeFrom(t, n);
      assert p + (x + SnakeFrom(t, n)) == (p + x) + SnakeFrom(t, n);
    }
  }

  lemma SnakeRewriteIsFrom(t: string)
    ensures SnakeRewrite(t, |t|) == SnakeFrom(t, 0)
  {
    SnakeFromRewrite(t, |t|);
  }

  /** Away from the start, the decision at a position reads only that
      position and its two neighbours. */
  lemma {:induction false} SnakeFromShift(a: string, b: string, j: nat)
    requires 0 < j <= |b|
    ensures SnakeFrom(a + b, |a| + j) == SnakeFrom(b, j)
    decreases |b| - j
  {
    var t := a + b;
    if j < |b| {
      assert SnakeFrom(t, |a| + j) == SnakePiece(t, |a| + j) + SnakeFrom(t, |a| + j + 1);
      assert SnakeFrom(b, j) == SnakePiece(b, j) + SnakeFrom(b, j + 1);
      SnakePieceShift(a, b, j);
      SnakeFromShift(a, b, j + 1);
    } else {
      assert |a| + j == |t|;
    }
  }

  lemma SnakePieceShift(a: string, b: string, j: nat)
    requires 0 < j < |b|
    ensures SnakePiece(a + b, |a| + j) == SnakePiece(b, j)
  {
    var t := a + b;
    assert t[|a| + j] == b[j] && t[|a| + j - 1] == b[j - 1];
    assert |a| + j + 1 < |t| ==> t[|a| + j + 1] == b[j + 1];
  }

  /** Cutting `t` into `a + b` where the decisions on both sides of the cut
      do not change. */
  predicate SnakeCutOk(a: string, b: string) {
    && (a != [] ==> UnderscoreBefore(a + b, |a| - 1) == UnderscoreBefore(a, |a| - 1))
    && (b != [] ==> UnderscoreBefore(a + b, |a|) == UnderscoreBefore(b, 0))
  }

  lemma SnakePiecePrefix(a: string, b: string, i: nat)
    requires i < |a| && SnakeCutOk(a, b)
    ensures SnakePiece(a + b, i) == SnakePiece(a, i)
  {
    var t := a + b;
    assert t[i] == a[i];
    if i + 1 < |a| {
      assert t[i + 1] == a[i + 1];
      assert 0 < i ==> t[i - 1] == a[i - 1];
    }
  }

  lemma {:induction false} SnakeFromSplit(a: string, b: string, i: nat)
    requires i <= |a| && SnakeCutOk(a, b)
    ensures SnakeFrom(a + b, i) == SnakeFrom(a, i) + SnakeFrom(b, 0)
    decreases |a| - i
  {
    var t := a + b;
    if i == |a| {
      if b != [] {
        assert t[|a|] == b[0];
        assert SnakePiece(t, |a|) == SnakePiece(b, 0);
        SnakeFromShift(a, b, 1);
      } else {
        assert t == a;
      }
    } else {
      SnakePiecePrefix(a, b, i);
      SnakeFromSplit(a, b, i + 1);
      var x := SnakePiece(a, i);
      assert x + (SnakeFrom(a, i + 1) + SnakeFrom(b, 0)) == (x + SnakeFrom(a, i + 1)) + SnakeFrom(b, 0);
    }
  }

  /** On a string that is already alphanumeric, `alphanumeric` changes
      nothing and `snake_case` is the rewrite, lower-cased. */
  lemma SnakeCaseOfAlnum(s: string)
    requires forall i :: 0 <= i < |s| ==> IsAlnum(s[i])
    ensures SnakeCase(s) == LowerAll(SnakeRewrite(s, |s|))
  {
    AlphanumericOfAlnum(s, "_");
  }

  // ---------------------------------------------------------------------------
  // camel_case(s): a separator (one of '-', '_', '.' or whitespace) followed
  // by a lower-case letter is replaced by that letter in upper case.
  // ---------------------------------------------------------------------------

  /** The class `[\-_\.\s]`. */
  predicate IsCamelSep(c: char) {
    c == '-' || c == '_' || c == '.' || IsSpace(c)
  }

  /** The pattern matches at position `i` of `s`. */
  predicate CamelMatchAt(s: string, i: nat)
    requires i < |s|
  {
    i + 1 < |s| && IsCamelSep(s[i]) && IsLower(s[i + 1])
  }

  /** The regex scan from position `i`: at a match, emit the upper-cased
      letter and skip both characters; elsewhere copy one character. */
  function CamelFrom(s: string, i: nat): (r: string)
    requires i <= |s|
    ensures |r| <= |s| - i
    decreases |s| - i
  {
    if i == |s| then []
    else if CamelMatchAt(s, i) then [ToUpper(s[i + 1])] + CamelFrom(s, i + 2)
    else [s[i]] + CamelFrom(s, i + 1)
  }

  /** `camel_case(s)`: every separator followed by a lower-case letter is
      replaced by that letter upper-cased. `CamelCaseIsPieces` and
      `CamelCaseAt` place every character. */
  function CamelCase(s: string): (r: string)
    ensures |r| <= |s|
  {
    CamelFrom(s, 0)
  }

  /** What position `i` of `s` contributes to the output, read off the
      pattern alone: a matching separator becomes its letter upper-cased, the
      letter it consumed contributes nothing, every other character itself. */
  function CamelPiece(s: string, i: nat): string
    requires i < |s|
  {
    if CamelMatchAt(s, i) then [ToUpper(s[i + 1])]
    else if 0 < i && CamelMatchAt(s, i - 1) then []
    else [s[i]]
  }

  /** The pieces of the first `n` positions, in order. */
  function CamelPieces(s: string, n: nat): string
    requires n <= |s|
  {
    if n == 0 then [] else CamelPieces(s, n - 1) + CamelPiece(s, n - 1)
  }

  /** The scan, started at a position that no match covers, produces the
      remaining pieces. */
  lemma {:induction false} CamelFromPieces(s: string, i: nat)
    requires i <= |s|
    requires i == 0 || !CamelMatchAt(s, i - 1)
    ensures CamelPieces(s, i) + CamelFrom(s, i) == CamelPieces(s, |s|)
    decreases |s| - i
  {
    if i < |s| {
      var w := CamelPieces(s, i);
      if CamelMatchAt(s, i) {
        assert CamelPieces(s, i + 2) == w + [ToUpper(s[i + 1])];
        CamelFromPieces(s, i + 2);
      } else {
        assert CamelPieces(s, i + 1) == w + [s[i]];
        CamelFromPieces(s, i + 1);
      }
    }
  }

  /** The regex scan and the position-by-position reading agree: matches
      never overlap, since the letter a match consumes is not a separator. */
  lemma CamelCaseIsPieces(s: string)
    ensures CamelCase(s) == CamelPieces(s, |s|)
  {
    CamelFromPieces(s, 0);
  }

  /** Number of matches among the first `n` positions. */
  function Replaced(s: string, n: nat): (k: nat)
    requires n <= |s|
    ensures k <= n
  {
    if n == 0 then 0 else Replaced(s, n - 1) + (if CamelMatchAt(s, n - 1) then 1 else 0)
  }

  lemma {:induction false} CamelPiecesPrefix(s: string, m: nat, n: nat)
    requires m <= n <= |s|
    ensures CamelPieces(s, m) <= CamelPieces(s, n)
    decreases n - m
  {
    if m < n {
      CamelPiecesPrefix(s, m, n - 1);
    }
  }

  lemma {:induction false} CamelPiecesLength(s: string, n: nat)
    requires n <= |s|
    ensures |CamelPieces(s, n)| + Replaced(s, n) == n + (if 0 < n && CamelMatchAt(s, n - 1) then 1 else 0)
  {
    if n > 0 {
      CamelPiecesLength(s, n - 1);
      if 1 < n && CamelMatchAt(s, n - 2) {
        assert !CamelMatchAt(s, n - 1);
      }
    }
  }

  /** `camel_case` position by position: where position `i` of `s` lands in
      the output (after the pieces of the positions before it) and what it
      becomes there. The output is shorter than `s` by the number of matches. */
  lemma CamelCaseAt(s: string, i: nat)
    requires i < |s|
    ensures var r := CamelCase(s);
      && |r| == |s| - Replaced(s, |s|)
      && (CamelMatchAt(s, i) ==> i - Replaced(s, i) < |r| && r[i - Replaced(s, i)] == ToUpper(s[i + 1]))
      && (!CamelMatchAt(s, i) && !(0 < i && CamelMatchAt(s, i - 1)) ==>
            i - Replaced(s, i) < |r| && r[i - Replaced(s, i)] == s[i])
  {
    CamelCaseIsPieces(s);
    CamelPiecesLength(s, |s|);
    CamelPiecesLength(s, i);
    CamelPiecesPrefix(s, i + 1, |s|);
  }

  /** No separator of `w` is followed by a lower-case letter. */
  predicate NoCamelMatch(w: string) {
    forall p :: 0 <= p < |w| ==> !CamelMatchAt(w, p)
  }

  /** Appending at most one character creates no match, unless a separator
      at the end is followed by a lower-case letter. */
  lemma NoCamelMatchAppend(v: string, x: string)
    requires NoCamelMatch(v) && |x| <= 1
    requires x != [] && v != [] && IsCamelSep(v[|v| - 1]) ==> !IsLower(x[0])
    ensures NoCamelMatch(v + x)
  {
    var w := v + x;
    forall p | 0 <= p < |w|
      ensures !CamelMatchAt(w, p)
    {
      if p + 1 < |v| {
        assert w[p] == v[p] && w[p + 1] == v[p + 1];
        assert !CamelMatchAt(v, p);
      } else if p + 1 == |v| && x != [] {
        assert w[p] == v[|v| - 1] && w[p + 1] == x[0];
      }
    }
  }

  lemma {:induction false} CamelPiecesNoMatch(s: string, n: nat)
    requires n <= |s|
    ensures var w := CamelPieces(s, n);
      && NoCamelMatch(w)
      && (w != [] && IsCamelSep(w[|w| - 1]) ==> 0 < n && w[|w| - 1] == s[n - 1] && !CamelMatchAt(s, n - 1))
  {
    if n > 0 {
      CamelPiecesNoMatch(s, n - 1);
      var v := CamelPieces(s, n - 1);
      var x := CamelPiece(s, n - 1);
      assert CamelPieces(s, n) == v + x;
      if 1 < n && CamelMatchAt(s, n - 2) {
        CamelPiecesNoMatch(s, n - 2);
        assert v == CamelPieces(s, n - 2) + [ToUpper(s[n - 1])];
        assert x == [];
        assert v + x == v;
      } else {
        NoCamelMatchAppend(v, x);
      }
    }
  }

  /** Nothing is left to replace. */
  lemma CamelCaseNoMatchLeft(s: string)
    ensures NoCamelMatch(CamelCase(s))
  {
    CamelCaseIsPieces(s);
    CamelPiecesNoMatch(s, |s|);
  }

  /** A string with no match is left unchanged. */
  lemma {:induction false} CamelPiecesIdentity(s: string, n: nat)
    requires n <= |s|
    requires NoCamelMatch(s)
    ensures CamelPieces(s, n) == s[..n]
  {
    if n > 0 {
      CamelPiecesIdentity(s, n - 1);
      assert s[..n] == s[..n - 1] + [s[n - 1]];
    }
  }

  lemma CamelCaseIdempotent(s: string)
    ensures CamelCase(CamelCase(s)) == CamelCase(s)
  {
    var r := CamelCase(s);
    CamelCaseNoMatchLeft(s);
    CamelCaseIsPieces(r);
    CamelPiecesIdentity(r, |r|);
  }

  lemma CamelMatchShift(a: string, b: string, j: nat)
    requires j < |b|
    ensures CamelMatchAt(a + b, |a| + j) == CamelMatchAt(b, j)
  {
    assert (a + b)[|a| + j] == b[j];
    if j + 1 < |b| {
      assert (a + b)[|a| + j + 1] == b[j + 1];
    }
  }

  /** The scan of `b` inside `a + b`. */
  lemma {:induction false} CamelFromShift(a: string, b: string, j: nat)
    requires j <= |b|
    ensures CamelFrom(a + b, |a| + j) == CamelFrom(b, j)
    decreases |b| - j
  {
    if j < |b| {
      var s := a + b;
      CamelMatchShift(a, b, j);
      assert s[|a| + j] == b[j];
      if CamelMatchAt(b, j) {
        assert s[|a| + j + 1] == b[j + 1];
        CamelFromShift(a, b, j + 2);
        assert CamelFrom(s, |a| + j) == [ToUpper(b[j + 1])] + CamelFrom(s, |a| + j + 2);
      } else {
        CamelFromShift(a, b, j + 1);
        assert CamelFrom(s, |a| + j) == [b[j]] + CamelFrom(s, |a| + j + 1);
      }
    }
  }

  lemma {:induction false} CamelFromSplit(a: string, b: string, i: nat)
    requires i <= |a|
    requires a == [] || !IsCamelSep(a[|a| - 1])
    ensures CamelFrom(a + b, i) == CamelFrom(a, i) + CamelFrom(b, 0)
    decreases |a| - i
  {
    var s := a + b;
    if i == |a| {
      CamelFromShift(a, b, 0);
    } else {
      assert s[i] == a[i];
      if i + 1 < |a| {
        assert s[i + 1] == a[i + 1];
      }
      assert CamelMatchAt(s, i) == CamelMatchAt(a, i);
      var k := if CamelMatchAt(a, i) then i + 2 else i + 1;
      var x := if CamelMatchAt(a, i) then [ToUpper(a[i + 1])] else [a[i]];
      assert CamelFrom(s, i) == x + CamelFrom(s, k);
      assert CamelFrom(a, i) == x + CamelFrom(a, k);
      CamelFromSplit(a, b, k);
      assert x + (CamelFrom(a, k) + CamelFrom(b, 0)) == (x + CamelFrom(a, k)) + CamelFrom(b, 0);
    }
  }

  /** No match straddles a character that is not a separator, so the two
      sides of such a character are rewritten independently. */
  lemma CamelCaseAppend(a: string, b: string)
    requires a == [] || !IsCamelSep(a[|a| - 1])
    ensures CamelCase(a + b) == CamelCase(a) + CamelCase(b)
  {
    CamelFromSplit(a, b, 0);
  }
}

=== FILE: regex_examples.dfy ===
/**
 The examples of the doc-comments of `regex.py`, as lemmas about the model.
 A long example is cut into halves at a place where the helper acts on the
 two sides independently, until the pieces are short enough to evaluate.
 */
module RegexExamples {
  import opened Text
  import opened Regex

  lemma SimpleCaseSplit(s: string, a: string, b: string)
    requires s == a + b
    ensures SimpleCase(s) == SimpleCase(a) + SimpleCase(b)
  {
    SimpleCaseAppend(a, b);
  }

  /** `simple_case` cut at any position. */
  lemma SimpleCaseCons(s: string, n: nat)
    requires n <= |s|
    ensures SimpleCase(s) == SimpleCase(s[..n]) + SimpleCase(s[n..])
  {
    assert s == s[..n] + s[n..];
    SimpleCaseSplit(s, s[..n], s[n..]);
  }

  lemma CollapseSplit(s: string, a: string, b: string, sep: string)
    requires s == a + b && CutOk(a, b) && LiteralSep(sep)
    ensures Collapse(s, sep) == Collapse(a, sep) + Collapse(b, sep)
  {
    CollapseAppend(a, b, sep);
  }

  /** `alphanumeric`'s substitution cut after an alphanumeric character. */
  lemma CollapseCut(s: string, n: nat, sep: string)
    requires 0 < n <= |s| && IsAlnum(s[n - 1]) && LiteralSep(sep)
    ensures Collapse(s, sep) == Collapse(s[..n], sep) + Collapse(s[n..], sep)
  {
    assert s == s[..n] + s[n..];
    CollapseSplit(s, s[..n], s[n..], sep);
  }

  lemma SnakeSplit(s: string, a: string, b: string)
    requires s == a + b && SnakeCutOk(a, b)
    ensures SnakeFrom(s, 0) == SnakeFrom(a, 0) + SnakeFrom(b, 0)
  {
    SnakeFromSplit(a, b, 0);
  }

  /** The rewrite of `snake_case` cut between two lower-case letters. */
  lemma SnakeCut(s: string, n: nat)
    requires 0 < n < |s| && IsLower(s[n - 1]) && IsLower(s[n])
    ensures SnakeFrom(s, 0) == SnakeFrom(s[..n], 0) + SnakeFrom(s[n..], 0)
  {
    assert s == s[..n] + s[n..];
    SnakeSplit(s, s[..n], s[n..]);
  }

  /** `snake_case` of an alphanumeric string from its rewrite `r`. */
  lemma SnakeCaseVia(s: string, r: string, out: string)
    requires forall i :: 0 <= i < |s| ==> IsAlnum(s[i])
    requires SnakeFrom(s, 0) == r
    requires |out| == |r| && forall i :: 0 <= i < |r| ==> out[i] == ToLower(r[i])
    ensures SnakeCase(s) == out
  {
    SnakeCaseOfAlnum(s);
    SnakeRewriteIsFrom(s);
  }

  /** `camel_case` cut after a character that is not a separator. */
  lemma CamelCaseCons(s: string, n: nat)
    requires 0 < n <= |s| && !IsCamelSep(s[n - 1])
    ensures CamelCase(s) == CamelCase(s[..n]) + CamelCase(s[n..])
  {
    CamelCaseAppend(s[..n], s[n..]);
    assert s[..n] + s[n..] == s;
  }

  // alphanumeric

  lemma CollapseExampleFrom0To5(s: string)
    requires s == "h^&el"
    ensures Collapse(s, "_") == "h_el"
  {
    var a := "h^&el";
    assert Collapse(a, "_") == "h_el";
  }

  lemma CollapseExampleFrom5To11(s: string)
    requires s == "l`.,|o"
    ensures Collapse(s, "_") == "l_o"
  {
    var a := "l`.,|o";
    assert Collapse(a, "_") == "l_o";
  }

  lemma CollapseExampleFrom0To11(s: string)
    requires s == "h^&ell`.,|o"
    ensures Collapse(s, "_") == "h_ell_o"
  {
    assert s[..5] == "h^&el";
    assert s[5..] == "l`.,|o";
    CollapseExampleFrom0To5(s[..5]);
    CollapseExampleFrom5To11(s[5..]);
    CollapseCut(s, 5, "_");
  }

  lemma CollapseExampleFrom11To17(s: string)
    requires s == " w]{+o"
    ensures Collapse(s, "_") == "_w_o"
  {
    var a := " w]{+o";
    assert Collapse(a, "_") == "_w_o";
  }

  lemma CollapseExampleFrom17To20(s: string)
    requires s == "rld"
    ensures Collapse(s, "_") == "rld"
  {
    var a := "rld";
    assert Collapse(a, "_") == "rld";
  }

  lemma CollapseExampleFrom11To20(s: string)
    requires s == " w]{+orld"
    ensures Collapse(s, "_") == "_w_orld"
  {
    assert s[..6] == " w]{+o";
    assert s[6..] == "rld";
    CollapseExampleFrom11To17(s[..6]);
    CollapseExampleFrom17To20(s[6..]);
    CollapseCut(s, 6, "_");
  }

  lemma CollapseExample(s: string)
    requires s == "h^&ell`.,|o w]{+orld"
    ensures Collapse(s, "_") == "h_ell_o_w_orld"
  {
    assert s[..11] == "h^&ell`.,|o";
    assert s[11..] == " w]{+orld";
    CollapseExampleFrom0To11(s[..11]);
    CollapseExampleFrom11To20(s[11..]);
    CollapseCut(s, 11, "_");
  }

  /** `alphanumeric` on the example of its doc-comment. */
  lemma AlphanumericExample(s: string)
    requires s == "h^&ell`.,|o w]{+orld"
    ensures Alphanumeric(s, "_") == "h_ell_o_w_orld"
  {
    StripOfTrimmed(s);
    CollapseExample(s);
  }

  // snake_case

  lemma SnakeRewriteExample1From0To2(s: string)
    requires s == "ge"
    ensures SnakeFrom(s, 0) == "ge"
  {
    var a := "ge";
    assert SnakeFrom(a, 0) == "ge";
  }

  lemma SnakeRewriteExample1From2To9(s: string)
    requires s == "tHTTPRe"
    ensures SnakeFrom(s, 0) == "t_HTTP_Re"
  {
    var a := "tHTTPRe";
    assert SnakeFrom(a, 0) == "t_HTTP_Re";
  }

  lemma SnakeRewriteExample1From0To9(s: string)
    requires s == "getHTTPRe"
    ensures SnakeFrom(s, 0) == "get_HTTP_Re"
  {
    assert SnakeFrom(s[..2], 0) == "ge" by {
      assert s[..2] == "ge";
      SnakeRewriteExample1From0To2(s[..2]);
    }
    assert SnakeFrom(s[2..], 0) == "t_HTTP_Re" by {
      assert s[2..] == "tHTTPRe";
      SnakeRewriteExample1From2To9(s[2..]);
    }
    SnakeCut(s, 2);
  }

  lemma SnakeRewriteExample1From9To14(s: string)
    requires s == "spons"
    ensures SnakeFrom(s, 0) == "spons"
  {
    var a := "spons";
    assert SnakeFrom(a, 0) == "spons";
  }

  lemma SnakeRewriteExample1From14To19(s: string)
    requires s == "eCode"
    ensures SnakeFrom(s, 0) == "e_Code"
  {
    var a := "eCode";
    assert SnakeFrom(a, 0) == "e_Code";
  }

  lemma SnakeRewriteExample1From9To19(s: string)
    requires s == "sponseCode"
    ensures SnakeFrom(s, 0) == "sponse_Code"
  {
    assert SnakeFrom(s[..5], 0) == "spons" by {
      assert s[..5] == "spons";
      SnakeRewriteExample1From9To14(s[..5]);
    }
    assert SnakeFrom(s[5..], 0) == "e_Code" by {
      assert s[5..] == "eCode";
      SnakeRewriteExample1From14To19(s[5..]);
    }
    SnakeCut(s, 5);
  }

  lemma SnakeRewriteExample1(s: string)
    requires s == "getHTTPResponseCode"
    ensures SnakeFrom(s, 0) == "get_HTTP_Response_Code"
  {
    assert SnakeFrom(s[..9], 0) == "get_HTTP_Re" by {
      assert s[..9] == "getHTTPRe";
      SnakeRewriteExample1From0To9(s[..9]);
    }
    assert SnakeFrom(s[9..], 0) == "sponse_Code" by {
      assert s[9..] == "sponseCode";
      SnakeRewriteExample1From9To19(s[9..]);
    }
    SnakeCut(s, 9);
  }

  /** Example 1 of the `snake_case` doc-comment. */
  lemma SnakeCaseExample1(s: string)
    requires s == "getHTTPResponseCode"
    ensures SnakeCase(s) == "get_http_response_code"
  {
    SnakeRewriteExample1(s);
    SnakeCaseVia(s, "get_HTTP_Response_Code", "get_http_response_code");
  }

  lemma SnakeRewriteExample2From0To2(s: string)
    requires s == "ge"
    ensures SnakeFrom(s, 0) == "ge"
  {
    var a := "ge";
    assert SnakeFrom(a, 0) == "ge";
  }

  lemma SnakeRewriteExample2From2To10(s: string)
    requires s == "t2HTTPRe"
    ensures SnakeFrom(s, 0) == "t2_HTTP_Re"
  {
    var a := "t2HTTPRe";
    assert SnakeFrom(a, 0) == "t2_HTTP_Re";
  }

  lemma SnakeRewriteExample2From0To10(s: string)
    requires s == "get2HTTPRe"
    ensures SnakeFrom(s, 0) == "get2_HTTP_Re"
  {
    assert SnakeFrom(s[..2], 0) == "ge" by {
      assert s[..2] == "ge";
      SnakeRewriteExample2From0To2(s[..2]);
    }
    assert SnakeFrom(s[2..], 0) == "t2_HTTP_Re" by {
      assert s[2..] == "t2HTTPRe";
      SnakeRewriteExample2From2To10(s[2..]);
    }
    SnakeCut(s, 2);
  }

  lemma SnakeRewriteExample2From10To15(s: string)
    requires s == "spons"
    ensures SnakeFrom(s, 0) == "spons"
  {
    var a := "spons";
    assert SnakeFrom(a, 0) == "spons";
  }

  lemma SnakeRewriteExample2From15To20(s: string)
    requires s == "eCode"
    ensures SnakeFrom(s, 0) == "e_Code"
  {
    var a := "eCode";
    assert SnakeFrom(a, 0) == "e_Code";
  }

  lemma SnakeRewriteExample2From10To20(s: string)
    requires s == "sponseCode"
    ensures SnakeFrom(s, 0) == "sponse_Code"
  {
    assert SnakeFrom(s[..5], 0) == "spons" by {
      assert s[..5] == "spons";
      SnakeRewriteExample2From10To15(s[..5]);
    }
    assert SnakeFrom(s[5..], 0) == "e_Code" by {
      assert s[5..] == "eCode";
      SnakeRewriteExample2From15To20(s[5..]);
    }
    SnakeCut(s, 5);
  }

  lemma SnakeRewriteExample2(s: string)
    requires s == "get2HTTPResponseCode"
    ensures SnakeFrom(s, 0) == "get2_HTTP_Response_Code"
  {
    assert SnakeFrom(s[..10], 0) == "get2_HTTP_Re" by {
      assert s[..10] == "get2HTTPRe";
      SnakeRewriteExample2From0To10(s[..10]);
    }
    assert SnakeFrom(s[10..], 0) == "sponse_Code" by {
      assert s[10..] == "sponseCode";
      SnakeRewriteExample2From10To20(s[10..]);
    }
    SnakeCut(s, 10);
  }

  /** Example 2 of the `snake_case` doc-comment. */
  lemma SnakeCaseExample2(s: string)
    requires s == "get2HTTPResponseCode"
    ensures SnakeCase(s) == "get2_http_response_code"
  {
    SnakeRewriteExample2(s);
    SnakeCaseVia(s, "get2_HTTP_Response_Code", "get2_http_response_code");
  }

  lemma SnakeRewriteExample3From0To2(s: string)
    requires s == "ge"
    ensures SnakeFrom(s, 0) == "ge"
  {
    var a := "ge";
    assert SnakeFrom(a, 0) == "ge";
  }

  lemma SnakeRewriteExample3From2To10(s: string)
    requires s == "t2HTTPRe"
    ensures SnakeFrom(s, 0) == "t2_HTTP_Re"
  {
    var a := "t2HTTPRe";
    assert SnakeFrom(a, 0) == "t2_HTTP_Re";
  }

  lemma SnakeRewriteExample3From10To11(s: string)
    requires s == "s"
    ensures SnakeFrom(s, 0) == "s"
  {
    var a := "s";
    assert SnakeFrom(a, 0) == "s";
  }

  lemma SnakeRewriteExample3From2To11(s: string)
    requires s == "t2HTTPRes"
    ensures SnakeFrom(s, 0) == "t2_HTTP_Res"
  {
    assert SnakeFrom(s[..8], 0) == "t2_HTTP_Re" by {
      assert s[..8] == "t2HTTPRe";
      SnakeRewriteExample3From2To10(s[..8]);
    }
    assert SnakeFrom(s[8..], 0) == "s" by {
      assert s[8..] == "s";
      SnakeRewriteExample3From10To11(s[8..]);
    }
    SnakeCut(s, 8);
  }

  lemma SnakeRewriteExample3From0To11(s: string)
    requires s == "get2HTTPRes"
    ensures SnakeFrom(s, 0) == "get2_HTTP_Res"
  {
    assert SnakeFrom(s[..2], 0) == "ge" by {
      assert s[..2] == "ge";
      SnakeRewriteExample3From0To2(s[..2]);
    }
    assert SnakeFrom(s[2..], 0) == "t2_HTTP_Res" by {
      assert s[2..] == "t2HTTPRes";
      SnakeRewriteExample3From2To11(s[2..]);
    }
    SnakeCut(s, 2);
  }

  lemma SnakeRewriteExample3From11To15(s: string)
    requires s == "pons"
    ensures SnakeFrom(s, 0) == "pons"
  {
    var a := "pons";
    assert SnakeFrom(a, 0) == "pons";
  }

  lemma SnakeRewriteExample3From15To23(s: string)
    requires s == "e123Code"
    ensures SnakeFrom(s, 0) == "e123_Code"
  {
    var a := "e123Code";
    assert SnakeFrom(a, 0) == "e123_Code";
  }

  lemma SnakeRewriteExample3From11To23(s: string)
    requires s == "ponse123Code"
    ensures SnakeFrom(s, 0) == "ponse123_Code"
  {
    assert SnakeFrom(s[..4], 0) == "pons" by {
      assert s[..4] == "pons";
      SnakeRewriteExample3From11To15(s[..4]);
    }
    assert SnakeFrom(s[4..], 0) == "e123_Code" by {
      assert s[4..] == "e123Code";
      SnakeRewriteExample3From15To23(s[4..]);
    }
    SnakeCut(s, 4);
  }

  lemma SnakeRewriteExample3(s: string)
    requires s == "get2HTTPResponse123Code"
    ensures SnakeFrom(s, 0) == "get2_HTTP_Response123_Code"
  {
    assert SnakeFrom(s[..11], 0) == "get2_HTTP_Res" by {
      assert s[..11] == "get2HTTPRes";
      SnakeRewriteExample3From0To11(s[..11]);
    }
    assert SnakeFrom(s[11..], 0) == "ponse123_Code" by {
      assert s[11..] == "ponse123Code";
      SnakeRewriteExample3From11To23(s[11..]);
    }
    SnakeCut(s, 11);
  }

  /** Example 3 of the `snake_case` doc-comment. */
  lemma SnakeCaseExample3(s: string)
    requires s == "get2HTTPResponse123Code"
    ensures SnakeCase(s) == "get2_http_response123_code"
  {
    SnakeRewriteExample3(s);
    SnakeCaseVia(s, "get2_HTTP_Response123_Code", "get2_http_response123_code");
  }

  lemma SnakeRewriteExample4From0To8(s: string)
    requires s == "HTTPResp"
    ensures SnakeFrom(s, 0) == "HTTP_Resp"
  {
    var a := "HTTPResp";
    assert SnakeFrom(a, 0) == "HTTP_Resp";
  }

  lemma SnakeRewriteExample4From8To16(s: string)
    requires s == "onseCode"
    ensures SnakeFrom(s, 0) == "onse_Code"
  {
    var a := "onseCode";
    assert SnakeFrom(a, 0) == "onse_Code";
  }

  lemma SnakeRewriteExample4(s: string)
    requires s == "HTTPResponseCode"
    ensures SnakeFrom(s, 0) == "HTTP_Response_Code"
  {
    assert SnakeFrom(s[..8], 0) == "HTTP_Resp" by {
      assert s[..8] == "HTTPResp";
      SnakeRewriteExample4From0To8(s[..8]);
    }
    assert SnakeFrom(s[8..], 0) == "onse_Code" by {
      assert s[8..] == "onseCode";
      SnakeRewriteExample4From8To16(s[8..]);
    }
    SnakeCut(s, 8);
  }

  /** Example 4 of the `snake_case` doc-comment. */
  lemma SnakeCaseExample4(s: string)
    requires s == "HTTPResponseCode"
    ensures SnakeCase(s) == "http_response_code"
  {
    SnakeRewriteExample4(s);
    SnakeCaseVia(s, "HTTP_Response_Code", "http_response_code");
  }

  lemma SnakeRewriteExample5From0To6(s: string)
    requires s == "HTTPRe"
    ensures SnakeFrom(s, 0) == "HTTP_Re"
  {
    var a := "HTTPRe";
    assert SnakeFrom(a, 0) == "HTTP_Re";
  }

  lemma SnakeRewriteExample5From6To9(s: string)
    requires s == "spo"
    ensures SnakeFrom(s, 0) == "spo"
  {
    var a := "spo";
    assert SnakeFrom(a, 0) == "spo";
  }

  lemma SnakeRewriteExample5From0To9(s: string)
    requires s == "HTTPRespo"
    ensures SnakeFrom(s, 0) == "HTTP_Respo"
  {
    assert SnakeFrom(s[..6], 0) == "HTTP_Re" by {
      assert s[..6] == "HTTPRe";
      SnakeRewriteExample5From0To6(s[..6]);
    }
    assert SnakeFrom(s[6..], 0) == "spo" by {
      assert s[6..] == "spo";
      SnakeRewriteExample5From6To9(s[6..]);
    }
    SnakeCut(s, 6);
  }

  lemma SnakeRewriteExample5From9To14(s: string)
    requires s == "nseCo"
    ensures SnakeFrom(s, 0) == "nse_Co"
  {
    var a := "nseCo";
    assert SnakeFrom(a, 0) == "nse_Co";
  }

  lemma SnakeRewriteExample5From14To19(s: string)
    requires s == "deXYZ"
    ensures SnakeFrom(s, 0) == "de_XYZ"
  {
    var a := "deXYZ";
    assert SnakeFrom(a, 0) == "de_XYZ";
  }

  lemma SnakeRewriteExample5From9To19(s: string)
    requires s == "nseCodeXYZ"
    ensures SnakeFrom(s, 0) == "nse_Code_XYZ"
  {
    assert SnakeFrom(s[..5], 0) == "nse_Co" by {
      assert s[..5] == "nseCo";
      SnakeRewriteExample5From9To14(s[..5]);
    }
    assert SnakeFrom(s[5..], 0) == "de_XYZ" by {
      assert s[5..] == "deXYZ";
      SnakeRewriteExample5From14To19(s[5..]);
    }
    SnakeCut(s, 5);
  }

  lemma SnakeRewriteExample5(s: string)
    requires s == "HTTPResponseCodeXYZ"
    ensures SnakeFrom(s, 0) == "HTTP_Response_Code_XYZ"
  {
    assert SnakeFrom(s[..9], 0) == "HTTP_Respo" by {
      assert s[..9] == "HTTPRespo";
      SnakeRewriteExample5From0To9(s[..9]);
    }
    assert SnakeFrom(s[9..], 0) == "nse_Code_XYZ" by {
      assert s[9..] == "nseCodeXYZ";
      SnakeRewriteExample5From9To19(s[9..]);
    }
    SnakeCut(s, 9);
  }

  /** Example 5 of the `snake_case` doc-comment. */
  lemma SnakeCaseExample5(s: string)
    requires s == "HTTPResponseCodeXYZ"
    ensures SnakeCase(s) == "http_response_code_xyz"
  {
    SnakeRewriteExample5(s);
    SnakeCaseVia(s, "HTTP_Response_Code_XYZ", "http_response_code_xyz");
  }

  // simple_case

  lemma SimpleCaseExample1From0To8(s: string)
    requires s == "xxasdfIS"
    ensures SimpleCase(s) == "xxasdfIS"
  {
    var a := "xxasdfIS";
    assert SimpleCase(a) == "xxasdfIS";
  }

  lemma SimpleCaseExample1From8To16(s: string)
    requires s == " _asdkf "
    ensures SimpleCase(s) == "_asdkf"
  {
    var a := " _asdkf ";
    assert SimpleCase(a) == "_asdkf";
  }

  lemma SimpleCaseExample1From0To16(s: string)
    requires s == "xxasdfIS _asdkf "
    ensures SimpleCase(s) == "xxasdfIS_asdkf"
  {
    assert s[..8] == "xxasdfIS";
    assert s[8..] == " _asdkf ";
    SimpleCaseExample1From0To8(s[..8]);
    SimpleCaseExample1From8To16(s[8..]);
    SimpleCaseCons(s, 8);
  }

  lemma SimpleCaseExample1From16To24(s: string)
    requires s == "ks. asfx"
    ensures SimpleCase(s) == "ks.asfx"
  {
    var a := "ks. asfx";
    assert SimpleCase(a) == "ks.asfx";
  }

  lemma SimpleCaseExample1From24To32(s: string)
    requires s == " - dkasx"
    ensures SimpleCase(s) == "-dkasx"
  {
    var a := " - dkasx";
    assert SimpleCase(a) == "-dkasx";
  }

  lemma SimpleCaseExample1From16To32(s: string)
    requires s == "ks. asfx - dkasx"
    ensures SimpleCase(s) == "ks.asfx-dkasx"
  {
    assert s[..8] == "ks. asfx";
    assert s[8..] == " - dkasx";
    SimpleCaseExample1From16To24(s[..8]);
    SimpleCaseExample1From24To32(s[8..]);
    SimpleCaseCons(s, 8);
  }

  /** The first example of the `simple_case` doc-comment. */
  lemma SimpleCaseExample1(s: string)
    requires s == "xxasdfIS _asdkf ks. asfx - dkasx"
    ensures SimpleCase(s) == "xxasdfIS_asdkfks.asfx-dkasx"
  {
    assert s[..16] == "xxasdfIS _asdkf ";
    assert s[16..] == "ks. asfx - dkasx";
    SimpleCaseExample1From0To16(s[..16]);
    SimpleCaseExample1From16To32(s[16..]);
    SimpleCaseCons(s, 16);
  }

  lemma SimpleCaseExample2From0To5(s: string)
    requires s == "xxasd"
    ensures SimpleCase(s) == "xxasd"
  {
    var a := "xxasd";
    assert SimpleCase(a) == "xxasd";
  }

  lemma SimpleCaseExample2From5To10(s: string)
    requires s == "fIS \U{D3}"
    ensures SimpleCase(s) == "fIS"
  {
    var a := "fIS \U{D3}";
    assert SimpleCase(a) == "fIS";
  }

  lemma SimpleCaseExample2From0To10(s: string)
    requires s == "xxasdfIS \U{D3}"
    ensures SimpleCase(s) == "xxasdfIS"
  {
    assert s[..5] == "xxasd";
    assert s[5..] == "fIS \U{D3}";
    SimpleCaseExample2From0To5(s[..5]);
    SimpleCaseExample2From5To10(s[5..]);
    SimpleCaseCons(s, 5);
  }

  lemma SimpleCaseExample2From10To15(s: string)
    requires s == "\U{D4}\U{D4}LIa"
    ensures SimpleCase(s) == "LIa"
  {
    var a := "\U{D4}\U{D4}LIa";
    assert SimpleCase(a) == "LIa";
  }

  lemma SimpleCaseExample2From15To21(s: string)
    requires s == "sdf_as"
    ensures SimpleCase(s) == "sdf_as"
  {
    var a := "sdf_as";
    assert SimpleCase(a) == "sdf_as";
  }

  lemma SimpleCaseExample2From10To21(s: string)
    requires s == "\U{D4}\U{D4}LIasdf_as"
    ensures SimpleCase(s) == "LIasdf_as"
  {
    assert s[..5] == "\U{D4}\U{D4}LIa";
    assert s[5..] == "sdf_as";
    SimpleCaseExample2From10To15(s[..5]);
    SimpleCaseExample2From15To21(s[5..]);
    SimpleCaseCons(s, 5);
  }

  lemma SimpleCaseExample2From0To21(s: string)
    requires s == "xxasdfIS \U{D3}\U{D4}\U{D4}LIasdf_as"
    ensures SimpleCase(s) == "xxasdfISLIasdf_as"
  {
    assert s[..10] == "xxasdfIS \U{D3}";
    assert s[10..] == "\U{D4}\U{D4}LIasdf_as";
    SimpleCaseExample2From0To10(s[..10]);
    SimpleCaseExample2From10To21(s[10..]);
    SimpleCaseCons(s, 10);
  }

  lemma SimpleCaseExample2From21To26(s: string)
    requires s == "dkf\U{4E2D}\U{6587}"
    ensures SimpleCase(s) == "dkf"
  {
    var a := "dkf\U{4E2D}\U{6587}";
    assert SimpleCase(a) == "dkf";
  }

  lemma SimpleCaseExample2From26To31(s: string)
    requires s == "ks. a"
    ensures SimpleCase(s) == "ks.a"
  {
    var a := "ks. a";
    assert SimpleCase(a) == "ks.a";
  }

  lemma SimpleCaseExample2From21To31(s: string)
    requires s == "dkf\U{4E2D}\U{6587}ks. a"
    ensures SimpleCase(s) == "dkfks.a"
  {
    assert s[..5] == "dkf\U{4E2D}\U{6587}";
    assert s[5..] == "ks. a";
    SimpleCaseExample2From21To26(s[..5]);
    SimpleCaseExample2From26To31(s[5..]);
    SimpleCaseCons(s, 5);
  }

  lemma SimpleCaseExample2From31To36(s: string)
    requires s == "sfx -"
    ensures SimpleCase(s) == "sfx-"
  {
    var a := "sfx -";
    assert SimpleCase(a) == "sfx-";
  }

  lemma SimpleCaseExample2From36To42(s: string)
    requires s == " dkasx"
    ensures SimpleCase(s) == "dkasx"
  {
    var a := " dkasx";
    assert SimpleCase(a) == "dkasx";
  }

  lemma SimpleCaseExample2From31To42(s: string)
    requires s == "sfx - dkasx"
    ensures SimpleCase(s) == "sfx-dkasx"
  {
    assert s[..5] == "sfx -";
    assert s[5..] == " dkasx";
    SimpleCaseExample2From31To36(s[..5]);
    SimpleCaseExample2From36To42(s[5..]);
    SimpleCaseCons(s, 5);
  }

  lemma SimpleCaseExample2From21To42(s: string)
    requires s == "dkf\U{4E2D}\U{6587}ks. asfx - dkasx"
    ensures SimpleCase(s) == "dkfks.asfx-dkasx"
  {
    assert s[..10] == "dkf\U{4E2D}\U{6587}ks. a";
    assert s[10..] == "sfx - dkasx";
    SimpleCaseExample2From21To31(s[..10]);
    SimpleCaseExample2From31To42(s[10..]);
    SimpleCaseCons(s, 10);
  }

  /** The second example: characters outside ASCII are dropped as well. */
  lemma SimpleCaseExample2(s: string)
    requires s == "xxasdfIS \U{D3}\U{D4}\U{D4}LIasdf_asdkf\U{4E2D}\U{6587}ks. asfx - dkasx"
    ensures SimpleCase(s) == "xxasdfISLIasdf_asdkfks.asfx-dkasx"
  {
    assert s[..21] == "xxasdfIS \U{D3}\U{D4}\U{D4}LIasdf_as";
    assert s[21..] == "dkf\U{4E2D}\U{6587}ks. asfx - dkasx";
    SimpleCaseExample2From0To21(s[..21]);
    SimpleCaseExample2From21To42(s[21..]);
    SimpleCaseCons(s, 21);
  }

  // camel_case

  lemma CamelCaseExample1From0To7(s: string)
    requires s == "Some ri"
    ensures CamelCase(s) == "SomeRi"
  {
    var a := "Some ri";
    assert CamelCase(a) == "SomeRi";
  }

  lemma CamelCaseExample1From7To14(s: string)
    requires s == "se ^\U{5347}\U{8D77}^"
    ensures CamelCase(s) == "se ^\U{5347}\U{8D77}^"
  {
    var a := "se ^\U{5347}\U{8D77}^";
    assert CamelCase(a) == "se ^\U{5347}\U{8D77}^";
  }

  lemma CamelCaseExample1From0To14(s: string)
    requires s == "Some rise ^\U{5347}\U{8D77}^"
    ensures CamelCase(s) == "SomeRise ^\U{5347}\U{8D77}^"
  {
    assert s[..7] == "Some ri";
    assert s[7..] == "se ^\U{5347}\U{8D77}^";
    CamelCaseExample1From0To7(s[..7]);
    CamelCaseExample1From7To14(s[7..]);
    CamelCaseCons(s, 7);
  }

  lemma CamelCaseExample1From14To22(s: string)
    requires s == ". Some f"
    ensures CamelCase(s) == ". SomeF"
  {
    var a := ". Some f";
    assert CamelCase(a) == ". SomeF";
  }

  lemma CamelCaseExample1From22To27(s: string)
    requires s == "ade \U{AA}"
    ensures CamelCase(s) == "ade \U{AA}"
  {
    var a := "ade \U{AA}";
    assert CamelCase(a) == "ade \U{AA}";
  }

  lemma CamelCaseExample1From27To31(s: string)
    requires s == "\U{2022}\U{2022}\U{BA}."
    ensures CamelCase(s) == "\U{2022}\U{2022}\U{BA}."
  {
    var a := "\U{2022}\U{2022}\U{BA}.";
    assert CamelCase(a) == "\U{2022}\U{2022}\U{BA}.";
  }

  lemma CamelCaseExample1From22To31(s: string)
    requires s == "ade \U{AA}\U{2022}\U{2022}\U{BA}."
    ensures CamelCase(s) == "ade \U{AA}\U{2022}\U{2022}\U{BA}."
  {
    assert s[..5] == "ade \U{AA}";
    assert s[5..] == "\U{2022}\U{2022}\U{BA}.";
    CamelCaseExample1From22To27(s[..5]);
    CamelCaseExample1From27To31(s[5..]);
    CamelCaseCons(s, 5);
  }

  lemma CamelCaseExample1From14To31(s: string)
    requires s == ". Some fade \U{AA}\U{2022}\U{2022}\U{BA}."
    ensures CamelCase(s) == ". SomeFade \U{AA}\U{2022}\U{2022}\U{BA}."
  {
    assert s[..8] == ". Some f";
    assert s[8..] == "ade \U{AA}\U{2022}\U{2022}\U{BA}.";
    CamelCaseExample1From14To22(s[..8]);
    CamelCaseExample1From22To31(s[8..]);
    CamelCaseCons(s, 8);
  }

  /** The first example of the `camel_case` doc-comment: a separator before anything but a lower-case ASCII letter is kept. */
  lemma CamelCaseExample1(s: string)
    requires s == "Some rise ^\U{5347}\U{8D77}^. Some fade \U{AA}\U{2022}\U{2022}\U{BA}."
    ensures CamelCase(s) == "SomeRise ^\U{5347}\U{8D77}^. SomeFade \U{AA}\U{2022}\U{2022}\U{BA}."
  {
    assert s[..14] == "Some rise ^\U{5347}\U{8D77}^";
    assert s[14..] == ". Some fade \U{AA}\U{2022}\U{2022}\U{BA}.";
    CamelCaseExample1From0To14(s[..14]);
    CamelCaseExample1From14To31(s[14..]);
    CamelCaseCons(s, 14);
  }

  lemma CamelCaseExample2From0To7(s: string)
    requires s == "Some li"
    ensures CamelCase(s) == "SomeLi"
  {
    var a := "Some li";
    assert CamelCase(a) == "SomeLi";
  }

  lemma CamelCaseExample2From7To14(s: string)
    requires s == "ve to d"
    ensures CamelCase(s) == "veToD"
  {
    var a := "ve to d";
    assert CamelCase(a) == "veToD";
  }

  lemma CamelCaseExample2From0To14(s: string)
    requires s == "Some live to d"
    ensures CamelCase(s) == "SomeLiveToD"
  {
    assert s[..7] == "Some li";
    assert s[7..] == "ve to d";
    CamelCaseExample2From0To7(s[..7]);
    CamelCaseExample2From7To14(s[7..]);
    CamelCaseCons(s, 7);
  }

  lemma CamelCaseExample2From14To21(s: string)
    requires s == "ie anot"
    ensures CamelCase(s) == "ieAnot"
  {
    var a := "ie anot";
    assert CamelCase(a) == "ieAnot";
  }

  lemma CamelCaseExample2From21To29(s: string)
    requires s == "her day."
    ensures CamelCase(s) == "herDay."
  {
    var a := "her day.";
    assert CamelCase(a) == "herDay.";
  }

  lemma CamelCaseExample2From14To29(s: string)
    requires s == "ie another day."
    ensures CamelCase(s) == "ieAnotherDay."
  {
    assert s[..7] == "ie anot";
    assert s[7..] == "her day.";
    CamelCaseExample2From14To21(s[..7]);
    CamelCaseExample2From21To29(s[7..]);
    CamelCaseCons(s, 7);
  }

  /** The second example. */
  lemma CamelCaseExample2(s: string)
    requires s == "Some live to die another day."
    ensures CamelCase(s) == "SomeLiveToDieAnotherDay."
  {
    assert s[..14] == "Some live to d";
    assert s[14..] == "ie another day.";
    CamelCaseExample2From0To14(s[..14]);
    CamelCaseExample2From14To29(s[14..]);
    CamelCaseCons(s, 14);
  }

  lemma CamelCaseExample3From0To7(s: string)
    requires s == "I\U{2019}ll li"
    ensures CamelCase(s) == "I\U{2019}llLi"
  {
    var a := "I\U{2019}ll li";
    assert CamelCase(a) == "I\U{2019}llLi";
  }

  lemma CamelCaseExample3From7To14(s: string)
    requires s == "ve to d"
    ensures CamelCase(s) == "veToD"
  {
    var a := "ve to d";
    assert CamelCase(a) == "veToD";
  }

  lemma CamelCaseExample3From0To14(s: string)
    requires s == "I\U{2019}ll live to d"
    ensures CamelCase(s) == "I\U{2019}llLiveToD"
  {
    assert s[..7] == "I\U{2019}ll li";
    assert s[7..] == "ve to d";
    CamelCaseExample3From0To7(s[..7]);
    CamelCaseExample3From7To14(s[7..]);
    CamelCaseCons(s, 7);
  }

  lemma CamelCaseExample3From14To21(s: string)
    requires s == "ie anot"
    ensures CamelCase(s) == "ieAnot"
  {
    var a := "ie anot";
    assert CamelCase(a) == "ieAnot";
  }

  lemma CamelCaseExample3From21To29(s: string)
    requires s == "her day."
    ensures CamelCase(s) == "herDay."
  {
    var a := "her day.";
    assert CamelCase(a) == "herDay.";
  }

  lemma CamelCaseExample3From14To29(s: string)
    requires s == "ie another day."
    ensures CamelCase(s) == "ieAnotherDay."
  {
    assert s[..7] == "ie anot";
    assert s[7..] == "her day.";
    CamelCaseExample3From14To21(s[..7]);
    CamelCaseExample3From21To29(s[7..]);
    CamelCaseCons(s, 7);
  }

  /** The third example. */
  lemma CamelCaseExample3(s: string)
    requires s == "I\U{2019}ll live to die another day."
    ensures CamelCase(s) == "I\U{2019}llLiveToDieAnotherDay."
  {
    assert s[..14] == "I\U{2019}ll live to d";
    assert s[14..] == "ie another day.";
    CamelCaseExample3From0To14(s[..14]);
    CamelCaseExample3From14To29(s[14..]);
    CamelCaseCons(s, 14);
  }

}

=== FILE: text.dfy ===
/**
 Character classes and the few Python `str` operations the helpers rely on:
 `str.strip()`, `str.split(',')` and `','.join(...)`.

 Letter and digit classes are ASCII, as in the patterns of the regex helpers.
 Whitespace is the exact set of code points for which Python's `str.isspace()`
 holds, which is also the set `\s` matches in a `str` pattern.
 */
module Text {

  predicate IsDigit(c: char) { '0' <= c <= '9' }
  predicate IsLower(c: char) { 'a' <= c <= 'z' }
  predicate IsUpper(c: char) { 'A' <= c <= 'Z' }
  predicate IsAlpha(c: char) { IsLower(c) || IsUpper(c) }

  /** The class `[0-9a-zA-Z]`. */
  predicate IsAlnum(c: char) { IsDigit(c) || IsAlpha(c) }

  /** Python's `str.isspace()`, one code point at a time. */
  predicate IsSpace(c: char) {
    || '\t' <= c <= '\r'                    // \t \n \v \f \r
    || '\U{1C}' <= c <= '\U{1F}'            // file, group, record, unit separators
    || c == ' '
    || c == '\U{85}' || c == '\U{A0}' || c == '\U{1680}'
    || '\U{2000}' <= c <= '\U{200A}'
    || c == '\U{2028}' || c == '\U{2029}' || c == '\U{202F}' || c == '\U{205F}'
    || c == '\U{3000}'
  }

  /** ASCII lower-casing: only `A`..`Z` change. */
  function ToLower(c: char): (r: char)
    ensures IsUpper(c) ==> IsLower(r) && r as int == c as int + 32
    ensures !IsUpper(c) ==> r == c
  {
    if IsUpper(c) then (c as int + 32) as char else c
  }

  /** ASCII upper-casing: only `a`..`z` change. */
  function ToUpper(c: char): (r: char)
    ensures IsLower(c) ==> IsUpper(r) && r as int == c as int - 32
    ensures !IsLower(c) ==> r == c
  {
    if IsLower(c) then (c as int - 32) as char else c
  }

  function LowerAll(s: string): (r: string)
    ensures |r| == |s|
    ensures forall i :: 0 <= i < |s| ==> r[i] == ToLower(s[i])
  {
    if s == [] then [] else [ToLower(s[0])] + LowerAll(s[1..])
  }

  predicate NoSpace(s: string) {
    forall i :: 0 <= i < |s| ==> !IsSpace(s[i])
  }

  /** `s` neither starts nor ends with whitespace. */
  predicate Trimmed(s: string) {
    s == [] || (!IsSpace(s[0]) && !IsSpace(s[|s| - 1]))
  }

  /** `s.lstrip()`: drops the leading whitespace and nothing else. */
  function TrimStart(s: string): (r: string)
    ensures |r| <= |s|
    ensures r == [] || !IsSpace(r[0])
    decreases |s|
  {
    if s != [] && IsSpace(s[0]) then TrimStart(s[1..]) else s
  }

  /** What `TrimStart` drops is a whitespace prefix; what it keeps is the rest. */
  lemma {:induction false} TrimStartSuffix(s: string)
    ensures TrimStart(s) == s[|s| - |TrimStart(s)|..]
    ensures forall i :: 0 <= i < |s| - |TrimStart(s)| ==> IsSpace(s[i])
    decreases |s|
  {
    if s != [] && IsSpace(s[0]) {
      TrimStartSuffix(s[1..]);
    }
  }

  /** `s.rstrip()`: drops the trailing whitespace and nothing else. */
  function TrimEnd(s: string): (r: string)
    ensures |r| <= |s|
    ensures r == [] || !IsSpace(r[|r| - 1])
    decreases |s|
  {
    if s != [] && IsSpace(s[|s| - 1]) then TrimEnd(s[..|s| - 1]) else s
  }

  lemma {:induction false} TrimEndPrefix(s: string)
    ensures TrimEnd(s) == s[..|TrimEnd(s)|]
    ensures forall i :: |TrimEnd(s)| <= i < |s| ==> IsSpace(s[i])
    decreases |s|
  {
    if s != [] && IsSpace(s[|s| - 1]) {
      TrimEndPrefix(s[..|s| - 1]);
    }
  }

  /** Number of whitespace characters `s.lstrip()` removes. */
  function Leading(s: string): (n: nat)
    ensures n <= |s|
  {
    |s| - |TrimStart(s)|
  }

  /** `s.strip()`: whitespace removed from both ends. */
  function Strip(s: string): (r: string)
    ensures Trimmed(r)
    ensures |r| <= |s|
  {
    TrimEndPrefix(TrimStart(s));
    TrimEnd(TrimStart(s))
  }

  /** `Strip(s)` is the slice of `s` between its leading and its trailing
      whitespace. */
  lemma StripSlice(s: string)
    ensures Leading(s) + |Strip(s)| <= |s|
    ensures Strip(s) == s[Leading(s)..Leading(s) + |Strip(s)|]
    ensures forall i :: 0 <= i < Leading(s) ==> IsSpace(s[i])
    ensures forall i :: Leading(s) + |Strip(s)| <= i < |s| ==> IsSpace(s[i])
  {
    TrimStartSuffix(s);
    TrimEndPrefix(TrimStart(s));
  }

  lemma StripOfTrimmed(s: string)
    requires Trimmed(s)
    ensures Strip(s) == s
  {
  }

  lemma StripIdempotent(s: string)
    ensures Strip(Strip(s)) == Strip(s)
  {
    StripOfTrimmed(Strip(s));
  }

  lemma StripNoSpace(s: string)
    requires NoSpace(s)
    ensures Strip(s) == s
  {
  }

  /** Every character of `Strip(s)` is a character of `s`. */
  lemma StripChars(s: string, c: char)
    requires c in Strip(s)
    ensures c in s
  {
    var r := Strip(s);
    StripSlice(s);
    var k :| 0 <= k < |r| && r[k] == c;
    assert s[Leading(s) + k] == c;
  }

  function Count(s: string, c: char): (n: nat)
    ensures n <= |s|
  {
    if s == [] then 0 else (if s[0] == c then 1 else 0) + Count(s[1..], c)
  }

  lemma {:induction false} CountAppend(a: string, b: string, c: char)
    ensures Count(a + b, c) == Count(a, c) + Count(b, c)
  {
    if a == [] {
      assert a + b == b;
    } else {
      assert (a + b)[0] == a[0];
      assert (a + b)[1..] == a[1..] + b;
      CountAppend(a[1..], b, c);
    }
  }

  lemma CountAbsent(s: string, c: char)
    requires c !in s
    ensures Count(s, c) == 0
  {
    if s != [] {
      CountAbsent(s[1..], c);
    }
  }

  /** `s.split(d)` with an explicit one-character separator: always at least one
      part, and no part contains the separator. */
  function Split(s: string, d: char): (parts: seq<string>)
    ensures |parts| >= 1
    ensures forall k :: 0 <= k < |parts| ==> d !in parts[k]
    ensures |parts| == Count(s, d) + 1
  {
    if s == [] then [[]]
    else
      var rest := Split(s[1..], d);
      if s[0] == d then [[]] + rest
      else [[s[0]] + rest[0]] + rest[1..]
  }

  /** `d.join(parts)`. */
  function Join(parts: seq<string>, d: char): (r: string)
    requires |parts| >= 1
    ensures parts[0] <= r
    ensures |r| >= |parts| - 1
    ensures |parts| == 1 ==> r == parts[0]
  {
    if |parts| == 1 then parts[0] else parts[0] + [d] + Join(parts[1..], d)
  }

  lemma {:induction false} JoinSplit(s: string, d: char)
    ensures Join(Split(s, d), d) == s
  {
    if s != [] {
      JoinSplit(s[1..], d);
      var rest := Split(s[1..], d);
      if s[0] != d && |rest| > 1 {
        assert Join(rest, d) == rest[0] + [d] + Join(rest[1..], d);
      }
    }
  }

  lemma {:induction false} SplitJoin(parts: seq<string>, d: char)
    requires |parts| >= 1
    requires forall k :: 0 <= k < |parts| ==> d !in parts[k]
    ensures Split(Join(parts, d), d) == parts
  {
    if |parts| == 1 {
      SplitNoSeparator(parts[0], d);
    } else {
      SplitJoin(parts[1..], d);
      SplitPrefix(parts[0], Join(parts[1..], d), d);
    }
  }

  lemma {:induction false} SplitNoSeparator(s: string, d: char)
    requires d !in s
    ensures Split(s, d) == [s]
  {
    if s != [] {
      SplitNoSeparator(s[1..], d);
      assert [s[0]] + s[1..] == s;
    }
  }

  /** Splitting `p + [d] + t` where `p` has no separator. */
  lemma {:induction false} SplitPrefix(p: string, t: string, d: char)
    requires d !in p
    ensures Split(p + [d] + t, d) == [p] + Split(t, d)
  {
    if p == [] {
      assert ([d] + t)[1..] == t;
    } else {
      assert (p + [d] + t)[1..] == p[1..] + [d] + t;
      SplitPrefix(p[1..], t, d);
      assert [p[0]] + p[1..] == p;
    }
  }

  lemma {:induction false} CountJoin(parts: seq<string>, d: char)
    requires |parts| >= 1
    requires forall k :: 0 <= k < |parts| ==> d !in parts[k]
    ensures Count(Join(parts, d), d) == |parts| - 1
  {
    CountAbsent(parts[0], d);
    if |parts| > 1 {
      CountJoin(parts[1..], d);
      CountAppend(parts[0], [d], d);
      CountAppend(parts[0] + [d], Join(parts[1..], d), d);
    }
  }
}

=== FILE: title.dfy ===
/**
 `title_case` of `regex.py`: every word (a run of ASCII letters, optionally
 followed by an apostrophe and a second run) is capitalised.

 `TitleCase` follows the regex engine: at a letter it takes the longest run
 of letters, then one apostrophe and a second run of letters if there is
 one, and replaces that word by its capitalised form; any other character is
 copied. `StateAt`/`Emit` are an independent reading of the same pattern as a
 four-state machine that rewrites one character at a time, and
 `TitleCaseAt` states that the two agree on every position.
 */
module RegexTitle {
  import opened Text

  /** End of the run of letters that starts at `i`. */
  function LetterRunEnd(s: string, i: nat): (j: nat)
    requires i <= |s|
    ensures i <= j <= |s|
    ensures forall k :: i <= k < j ==> IsAlpha(s[k])
    ensures j == |s| || !IsAlpha(s[j])
    decreases |s| - i
  {
    if i < |s| && IsAlpha(s[i]) then LetterRunEnd(s, i + 1) else i
  }

  /** The optional group `('[A-Za-z]+)?` matches right after the first run. */
  predicate HasTail(s: string, i: nat)
    requires i <= |s|
  {
    var e := LetterRunEnd(s, i);
    e + 1 < |s| && s[e] == '\'' && IsAlpha(s[e + 1])
  }

  /** End of the match that starts at letter `i`. */
  function WordEnd(s: string, i: nat): (j: nat)
    requires i < |s| && IsAlpha(s[i])
    ensures i < j <= |s|
  {
    var e := LetterRunEnd(s, i);
    if HasTail(s, i) then LetterRunEnd(s, e + 1) else e
  }

  /** `str.capitalize()` on a word of ASCII letters and apostrophes. */
  function Capitalize(w: string): (r: string)
    requires w != []
    ensures |r| == |w|
    ensures r[0] == ToUpper(w[0])
    ensures forall k :: 0 < k < |w| ==> r[k] == ToLower(w[k])
  {
    [ToUpper(w[0])] + LowerAll(w[1..])
  }

  /** The substitution, scanning from position `i`. */
  function TitleFrom(s: string, i: nat): string
    requires i <= |s|
    decreases |s| - i
  {
    if i == |s| then []
    else if IsAlpha(s[i]) then
      var j := WordEnd(s, i);
      Capitalize(s[i..j]) + TitleFrom(s, j)
    else [s[i]] + TitleFrom(s, i + 1)
  }

  /** `title_case`: the substitution over the whole string. It keeps the
      length. */
  function TitleCase(s: string): (r: string)
    ensures |r| == |s|
  {
    TitleFromAt(s, 0);
    TitleFrom(s, 0)
  }

  /** `title_case`, position by position: character `k` of the output is what
      the reference machine emits at position `k`. */
  lemma TitleCaseAt(s: string)
    ensures |TitleCase(s)| == |s|
    ensures forall k :: 0 <= k < |s| ==> TitleCase(s)[k] == Emit(StateAt(s, k), s[k])
  {
    TitleFromAt(s, 0);
  }

  // The reference machine.

  /** Where the machine is after a prefix: outside any word, inside the first
      run of letters, just after an apostrophe that follows the first run,
      or inside the run after that apostrophe. */
  datatype WordState = Outside | FirstRun | Apostrophe | SecondRun

  function Next(st: WordState, c: char): WordState {
    if IsAlpha(c) then
      match st
      case Outside => FirstRun
      case FirstRun => FirstRun
      case Apostrophe => SecondRun
      case SecondRun => SecondRun
    else if st == FirstRun && c == '\'' then Apostrophe
    else Outside
  }

  /** A letter seen outside a word starts one and is upper-cased; any other
      letter is lower-cased; every other character is kept. */
  function Emit(st: WordState, c: char): char {
    if !IsAlpha(c) then c else if st == Outside then ToUpper(c) else ToLower(c)
  }

  function StateAt(s: string, k: nat): WordState
    requires k <= |s|
  {
    if k == 0 then Outside else Next(StateAt(s, k - 1), s[k - 1])
  }

  /** The machine reads every letter of a run from `FirstRun` or `SecondRun`
      without leaving that state. */
  lemma {:induction false} StateInRun(s: string, i: nat, k: nat, st: WordState)
    requires 0 < i <= |s| && i <= k <= LetterRunEnd(s, i)
    requires st == FirstRun || st == SecondRun
    requires StateAt(s, i) == st
    ensures StateAt(s, k) == st
    decreases k - i
  {
    if i < k {
      StateInRun(s, i, k - 1, st);
    }
  }

  /** Positions where the scan resumes are positions where the machine
      behaves like it does outside a word. */
  predicate Resumable(s: string, i: nat)
    requires i <= |s|
  {
    || i == |s|
    || StateAt(s, i) == Outside
    || (!IsAlpha(s[i]) && (StateAt(s, i) == FirstRun && s[i] == '\'' ==> !(i + 1 < |s| && IsAlpha(s[i + 1]))))
  }

  /** Every letter of the run that starts at `i` after the machine entered
      `st` at `i` leaves it in `st`. */
  lemma RunStates(s: string, i: nat, st: WordState)
    requires 0 < i <= |s|
    requires st == FirstRun || st == SecondRun
    requires StateAt(s, i) == st
    ensures forall k :: i <= k <= LetterRunEnd(s, i) ==> StateAt(s, k) == st
  {
    forall k | i <= k <= LetterRunEnd(s, i)
      ensures StateAt(s, k) == st
    {
      StateInRun(s, i, k, st);
    }
  }

  /** One match, read by the machine: the first letter from `Outside`, the
      rest inside the word; afterwards the scan can resume. */
  lemma WordByMachine(s: string, i: nat)
    requires i < |s| && IsAlpha(s[i]) && StateAt(s, i) == Outside
    ensures var j := WordEnd(s, i);
      && (forall k :: i < k < j ==> StateAt(s, k) != Outside)
      && Resumable(s, j)
  {
    var e := LetterRunEnd(s, i);
    assert LetterRunEnd(s, i + 1) == e;
    assert StateAt(s, i + 1) == FirstRun;
    RunStates(s, i + 1, FirstRun);
    if HasTail(s, i) {
      assert StateAt(s, e + 1) == Apostrophe;
      assert StateAt(s, e + 2) == SecondRun;
      assert LetterRunEnd(s, e + 2) == LetterRunEnd(s, e + 1);
      RunStates(s, e + 2, SecondRun);
    }
  }

  /** `TitleFrom(s, i)` is the machine's output from position `i` on. */
  predicate AgreesFrom(s: string, i: nat)
    requires i <= |s|
  {
    && |TitleFrom(s, i)| == |s| - i
    && forall k :: i <= k < |s| ==> TitleFrom(s, i)[k - i] == Emit(StateAt(s, k), s[k])
  }

  /** The capitalised word is what the machine emits over the match. */
  lemma WordEmitted(s: string, i: nat)
    requires i < |s| && IsAlpha(s[i]) && StateAt(s, i) == Outside
    ensures var j := WordEnd(s, i);
      forall k :: i <= k < j ==> Capitalize(s[i..j])[k - i] == Emit(StateAt(s, k), s[k])
  {
    var j := WordEnd(s, i);
    WordByMachine(s, i);
    var w := Capitalize(s[i..j]);
    forall k | i <= k < j
      ensures w[k - i] == Emit(StateAt(s, k), s[k])
    {
      assert s[i..j][k - i] == s[k];
    }
  }

  lemma WordStep(s: string, i: nat)
    requires i < |s| && IsAlpha(s[i]) && StateAt(s, i) == Outside
    requires AgreesFrom(s, WordEnd(s, i))
    ensures AgreesFrom(s, i)
  {
    var j := WordEnd(s, i);
    WordEmitted(s, i);
    var w := Capitalize(s[i..j]);
    var rest := TitleFrom(s, j);
    var r := TitleFrom(s, i);
    assert r == w + rest;
    assert |w| == j - i;
    forall k | i <= k < |s|
      ensures r[k - i] == Emit(StateAt(s, k), s[k])
    {
      if k < j {
        assert r[k - i] == w[k - i];
      } else {
        var d := k - j;
        assert 0 <= d < |rest| && rest[d] == Emit(StateAt(s, j + d), s[j + d]);
        assert r[k - i] == rest[d];
      }
    }
  }

  lemma OtherStep(s: string, i: nat)
    requires i < |s| && !IsAlpha(s[i])
    requires AgreesFrom(s, i + 1)
    ensures AgreesFrom(s, i)
  {
    var r := TitleFrom(s, i);
    forall k | i <= k < |s|
      ensures r[k - i] == Emit(StateAt(s, k), s[k])
    {
      if k > i {
        assert r[k - i] == TitleFrom(s, i + 1)[k - (i + 1)];
      }
    }
  }

  /** After a character that is not a letter the scan can resume again. */
  lemma ResumableAfter(s: string, i: nat)
    requires i < |s| && !IsAlpha(s[i]) && Resumable(s, i)
    ensures Resumable(s, i + 1)
  {
  }

  lemma {:induction false} TitleFromAt(s: string, i: nat)
    requires i <= |s|
    requires Resumable(s, i)
    ensures AgreesFrom(s, i)
    decreases |s| - i
  {
    if i < |s| {
      if IsAlpha(s[i]) {
        WordByMachine(s, i);
        TitleFromAt(s, WordEnd(s, i));
        WordStep(s, i);
      } else {
        ResumableAfter(s, i);
        TitleFromAt(s, i + 1);
        OtherStep(s, i);
      }
    }
  }

  /** Consequences: non-letters are kept, letters change case only. */
  lemma TitleCaseKeeps(s: string, k: nat)
    requires k < |s|
    ensures !IsAlpha(s[k]) ==> TitleCase(s)[k] == s[k]
    ensures IsAlpha(s[k]) ==> IsAlpha(TitleCase(s)[k]) && ToLower(TitleCase(s)[k]) == ToLower(s[k])
  {
    TitleCaseAt(s);
  }

  /** A run of the machine over `s`, written out state by state, together
      with what it emits, determines `TitleCase(s)`. */
  lemma {:induction false} RunIsStateAt(s: string, states: seq<WordState>, k: nat)
    requires |states| == |s| + 1 && states[0] == Outside
    requires forall i :: 0 <= i < |s| ==> states[i + 1] == Next(states[i], s[i])
    requires k <= |s|
    ensures StateAt(s, k) == states[k]
  {
    if k > 0 {
      RunIsStateAt(s, states, k - 1);
    }
  }

  lemma TitleCaseOfRun(s: string, states: seq<WordState>, t: string)
    requires |states| == |s| + 1 && states[0] == Outside
    requires forall i :: 0 <= i < |s| ==> states[i + 1] == Next(states[i], s[i])
    requires |t| == |s|
    requires forall i :: 0 <= i < |s| ==> t[i] == Emit(states[i], s[i])
    ensures TitleCase(s) == t
  {
    forall k | 0 <= k < |s|
      ensures StateAt(s, k) == states[k]
    {
      RunIsStateAt(s, states, k);
    }
    TitleCaseAt(s);
  }

  lemma TitleCaseAtPosition(s: string, k: nat)
    requires k < |s|
    ensures TitleCase(s)[k] == Emit(StateAt(s, k), s[k])
  {
    TitleCaseAt(s);
  }

  lemma {:induction false} StatePrefix(a: string, b: string, k: nat)
    requires k <= |a|
    ensures StateAt(a + b, k) == StateAt(a, k)
  {
    if k > 0 {
      StatePrefix(a, b, k - 1);
      assert (a + b)[k - 1] == a[k - 1];
    }
  }

  lemma {:induction false} StateShift(a: string, b: string, d: nat)
    requires StateAt(a, |a|) == Outside && d <= |b|
    ensures StateAt(a + b, |a| + d) == StateAt(b, d)
  {
    if d == 0 {
      StatePrefix(a, b, |a|);
    } else {
      StateShift(a, b, d - 1);
      assert (a + b)[|a| + d - 1] == b[d - 1];
    }
  }

  /** A string that ends outside a word is capitalised independently of what
      follows it. */
  lemma TitleCaseAppend(a: string, b: string)
    requires StateAt(a, |a|) == Outside
    ensures TitleCase(a + b) == TitleCase(a) + TitleCase(b)
  {
    var s := a + b;
    var r, ra, rb := TitleCase(s), TitleCase(a), TitleCase(b);
    forall k | 0 <= k < |s|
      ensures r[k] == (ra + rb)[k]
    {
      TitleCaseAtPosition(s, k);
      if k < |a| {
        TitleCaseAtPosition(a, k);
        StatePrefix(a, b, k);
        assert s[k] == a[k] && (ra + rb)[k] == ra[k];
      } else {
        var d := k - |a|;
        TitleCaseAtPosition(b, d);
        StateShift(a, b, d);
        assert s[|a| + d] == b[d] && (ra + rb)[|a| + d] == rb[d];
      }
    }
  }

  lemma TitleCaseWord1()
    ensures TitleCase("they're ") == "They're "
  {
    var O, F, A, S := Outside, FirstRun, Apostrophe, SecondRun;
    TitleCaseOfRun("they're ", [O, F, F, F, F, A, S, S, O], "They're ");
  }

  lemma TitleCaseWord2()
    ensures TitleCase("bill's ") == "Bill's "
  {
    var O, F, A, S := Outside, FirstRun, Apostrophe, SecondRun;
    TitleCaseOfRun("bill's ", [O, F, F, F, F, A, S, O], "Bill's ");
  }

  lemma TitleCaseWord3()
    ensures TitleCase("friends.") == "Friends."
  {
    var O, F := Outside, FirstRun;
    TitleCaseOfRun("friends.", [O, F, F, F, F, F, F, F, O], "Friends.");
  }

  lemma TitleCaseExampleWord1(s: string)
    requires s == "they're "
    ensures TitleCase(s) == "They're " && StateAt(s, |s|) == Outside
  {
    TitleCaseWord1();
    assert s[|s| - 1] == ' ';
  }

  lemma TitleCaseExampleWord2(s: string)
    requires s == "bill's "
    ensures TitleCase(s) == "Bill's " && StateAt(s, |s|) == Outside
  {
    TitleCaseWord2();
    assert s[|s| - 1] == ' ';
  }

  lemma TitleCaseExampleWord3(s: string)
    requires s == "friends."
    ensures TitleCase(s) == "Friends."
  {
    TitleCaseWord3();
  }

  lemma TitleCaseExampleJoin(r: string)
    requires r == "They're " + ("Bill's " + "Friends.")
    ensures r == "They're Bill's Friends."
  {
  }

  /** The example of the `title_case` doc-comment, one word at a time. */
  lemma TitleCaseExample(s: string)
    requires s == "they're bill's friends."
    ensures TitleCase(s) == "They're Bill's Friends."
  {
    var a, b, c := s[..8], s[8..15], s[15..];
    TitleCaseExampleWord1(a);
    TitleCaseExampleWord2(b);
    TitleCaseExampleWord3(c);
    TitleCaseAppend(b, c);
    assert s == a + (b + c);
    TitleCaseAppend(a, b + c);
    TitleCaseExampleJoin(TitleCase(s));
  }
}

=== FILE: types.dfy ===
/**
 The bind-side conversions of the column types of `_types.py`: what
 `FixedBool`, `TrimString` and `StringTags` hand to the database for a value
 assigned to a column. Each is a total function of the value; the dialect
 argument plays no part.
 */
module Types {
  import opened Text
  import opened Values

  // ---------------------------------------------------------------------------
  // FixedBool
  // ---------------------------------------------------------------------------

  function FalseTokens(): seq<Value> {
    [Str("0"), Int(0), Str("false"), Str("False")]
  }

  function TrueTokens(): seq<Value> {
    [Str("1"), Int(1), Str("true"), Str("True")]
  }

  /** Everything Python's `==` lets match a false token: the three strings,
      and any number equal to 0, which includes `False` and `0.0`. */
  predicate FalseLike(v: Value) {
    || v == Str("0") || v == Str("false") || v == Str("False")
    || (IsNumber(v) && NumberOf(v) == 0.0)
  }

  predicate TrueLike(v: Value) {
    || v == Str("1") || v == Str("true") || v == Str("True")
    || (IsNumber(v) && NumberOf(v) == 1.0)
  }

  lemma FalseTokensMatch(v: Value)
    ensures PyIn(v, FalseTokens()) <==> FalseLike(v)
  {
    PyInAt(v, FalseTokens());
    if FalseLike(v) {
      if v.Str? {
        if v.s == "0" { assert PyEq(v, FalseTokens()[0]); }
        else if v.s == "false" { assert PyEq(v, FalseTokens()[2]); }
        else { assert PyEq(v, FalseTokens()[3]); }
      } else {
        assert PyEq(v, FalseTokens()[1]);
      }
    }
  }

  lemma TrueTokensMatch(v: Value)
    ensures PyIn(v, TrueTokens()) <==> TrueLike(v)
  {
    PyInAt(v, TrueTokens());
    if TrueLike(v) {
      if v.Str? {
        if v.s == "1" { assert PyEq(v, TrueTokens()[0]); }
        else if v.s == "true" { assert PyEq(v, TrueTokens()[2]); }
        else { assert PyEq(v, TrueTokens()[3]); }
      } else {
        assert PyEq(v, TrueTokens()[1]);
      }
    }
  }

  /** `FixedBool.process_bind_param`: a value found in the list of false
      tokens becomes `False`, else one found in the list of true tokens
      becomes `True`, else the value is passed on as it is. There is no
      truthiness fallback: `"yes"`, `"FALSE"`, `2` and `None` pass through. */
  function FixedBool(v: Value): (r: Value)
    ensures FalseLike(v) ==> r == Bool(false)
    ensures TrueLike(v) ==> r == Bool(true)
    ensures !FalseLike(v) && !TrueLike(v) ==> r == v
  {
    FalseTokensMatch(v);
    TrueTokensMatch(v);
    if PyIn(v, FalseTokens()) then Bool(false)
    else if PyIn(v, TrueTokens()) then Bool(true)
    else v
  }

  lemma FixedBoolIdempotent(v: Value)
    ensures FixedBool(FixedBool(v)) == FixedBool(v)
  {
  }

  /** Python's `False == 0` and `0.0 == 0` make these match the false tokens. */
  lemma FixedBoolFalseExamples()
    ensures FixedBool(Bool(false)) == Bool(false)
    ensures FixedBool(Float(0.0)) == Bool(false)
  {
  }

  lemma FixedBoolTrueExamples()
    ensures FixedBool(Bool(true)) == Bool(true)
    ensures FixedBool(Float(1.0)) == Bool(true)
  {
  }

  /** Strings no token matches are passed on: matching is exact. */
  lemma FixedBoolStringExamples()
    ensures FixedBool(Str("yes")) == Str("yes")
    ensures FixedBool(Str("FALSE")) == Str("FALSE")
  {
  }

  lemma FixedBoolOtherExamples()
    ensures FixedBool(Null) == Null
    ensures FixedBool(Int(2)) == Int(2)
  {
  }

  // ---------------------------------------------------------------------------
  // TrimString
  // ---------------------------------------------------------------------------

  /** `TrimString.process_bind_param`: a non-empty string is stripped; the
      empty string, `None` and every non-string value are passed on. */
  function TrimString(v: Value): (r: Value)
    ensures v.Str? ==> r.Str? && Trimmed(r.s)
    ensures !v.Str? ==> r == v
  {
    if NonEmptyStr(v) then Str(Strip(v.s)) else v
  }

  /** On every string, the empty one included, the result is `s.strip()`:
      the input less its leading and trailing whitespace. */
  lemma TrimStringStrips(v: Value)
    requires v.Str?
    ensures TrimString(v) == Str(Strip(v.s))
  {
  }

  lemma TrimStringIdempotent(v: Value)
    ensures TrimString(TrimString(v)) == TrimString(v)
  {
    if NonEmptyStr(v) {
      StripIdempotent(v.s);
    }
  }

  // ---------------------------------------------------------------------------
  // StringTags
  // ---------------------------------------------------------------------------

  /** Every segment stripped. */
  function StripAll(parts: seq<string>): (r: seq<string>)
    ensures |r| == |parts|
    ensures forall k :: 0 <= k < |r| ==> r[k] == Strip(parts[k])
  {
    if parts == [] then [] else [Strip(parts[0])] + StripAll(parts[1..])
  }

  /** The stripped segments of `s` between commas. */
  function Tags(s: string): (parts: seq<string>)
    ensures |parts| == Count(s, ',') + 1
    ensures forall k :: 0 <= k < |parts| ==> ',' !in parts[k] && Trimmed(parts[k])
  {
    var parts := StripAll(Split(s, ','));
    forall k | 0 <= k < |parts|
      ensures ',' !in parts[k]
    {
      if ',' in parts[k] {
        StripChars(Split(s, ',')[k], ',');
      }
    }
    parts
  }

  /** `StringTags.process_bind_param`: a non-empty string is split at every
      comma, each segment stripped and the segments joined again with commas;
      anything else, the empty string included, becomes `""`. */
  function StringTags(v: Value): (r: Value)
    ensures r.Str?
    ensures !NonEmptyStr(v) ==> r == Str("")
  {
    if NonEmptyStr(v) then Str(Join(Tags(v.s), ',')) else Str("")
  }

  /** Splitting the output at its commas gives back the stripped segments:
      no segment is lost, empty ones included. */
  lemma StringTagsSplit(v: Value)
    requires NonEmptyStr(v)
    ensures Split(StringTags(v).s, ',') == Tags(v.s)
  {
    SplitJoin(Tags(v.s), ',');
  }

  lemma StringTagsCommas(v: Value)
    requires NonEmptyStr(v)
    ensures Count(StringTags(v).s, ',') == Count(v.s, ',')
  {
    CountJoin(Tags(v.s), ',');
  }

  /** No whitespace next to a separator `d`, nor at either end. */
  predicate TightAround(w: string, d: char) {
    && Trimmed(w)
    && forall i :: 0 <= i < |w| && w[i] == d ==>
      (0 < i ==> !IsSpace(w[i - 1])) && (i + 1 < |w| ==> !IsSpace(w[i + 1]))
  }

  lemma {:induction false} JoinTight(parts: seq<string>, d: char)
    requires |parts| >= 1 && !IsSpace(d)
    requires forall k :: 0 <= k < |parts| ==> d !in parts[k] && Trimmed(parts[k])
    ensures TightAround(Join(parts, d), d)
  {
    if |parts| > 1 {
      JoinTight(parts[1..], d);
      var p, t := parts[0], Join(parts[1..], d);
      var w := p + [d] + t;
      assert Join(parts, d) == w;
      forall i | 0 <= i < |w| && w[i] == d
        ensures (0 < i ==> !IsSpace(w[i - 1])) && (i + 1 < |w| ==> !IsSpace(w[i + 1]))
      {
        if i == |p| {
          if 0 < i { assert w[i - 1] == p[|p| - 1]; }
          if i + 1 < |w| { assert w[i + 1] == t[0]; }
        } else if i > |p| {
          assert w[i] == t[i - |p| - 1];
          if i + 1 < |w| { assert w[i + 1] == t[i - |p|]; }
          if i - 1 > |p| { assert w[i - 1] == t[i - |p| - 2]; }
        }
      }
      assert w[0] == (if p == [] then d else p[0]);
      assert w[|w| - 1] == (if t == [] then d else t[|t| - 1]);
    }
  }

  /** The output has no whitespace next to a comma or at either end. */
  lemma StringTagsTight(v: Value)
    ensures TightAround(StringTags(v).s, ',')
  {
    if NonEmptyStr(v) {
      JoinTight(Tags(v.s), ',');
    }
  }

  lemma {:induction false} StripAllTrimmed(parts: seq<string>)
    requires forall k :: 0 <= k < |parts| ==> Trimmed(parts[k])
    ensures StripAll(parts) == parts
  {
    forall k | 0 <= k < |parts|
      ensures StripAll(parts)[k] == parts[k]
    {
      StripOfTrimmed(parts[k]);
    }
  }

  lemma StringTagsIdempotent(v: Value)
    ensures StringTags(StringTags(v)) == StringTags(v)
  {
    var r := StringTags(v);
    if NonEmptyStr(r) {
      StringTagsSplit(v);
      StripAllTrimmed(Tags(v.s));
    }
  }
}

=== FILE: values.dfy ===
/**
 The Python values that reach the column codecs and the forms of the model
 layer, with the parts of Python's data model the code relies on: `==`
 (through the `in` operator of a list) and truthiness.

 `Null` is Python's `None`. `Float` is modelled by a real number, so there is
 no NaN and no negative zero. `Other(id)` stands for any other object: it
 compares by identity and is truthy, as `object` does by default.
 */
module Values {

  datatype Value =
    | Str(s: string)
    | Int(i: int)
    | Float(f: real)
    | Bool(b: bool)
    | Null
    | Other(id: nat)

  /** `bool` is a subclass of `int` and `int` compares with `float` by value. */
  predicate IsNumber(v: Value) {
    v.Int? || v.Float? || v.Bool?
  }

  function NumberOf(v: Value): real
    requires IsNumber(v)
  {
    match v
    case Int(i) => i as real
    case Float(f) => f
    case Bool(b) => if b then 1.0 else 0.0
  }

  /** Python's `a == b` on these values: numbers compare by value across
      `bool`, `int` and `float`; a number never equals a non-number; every
      other value equals only itself. */
  predicate PyEq(a: Value, b: Value)
    ensures IsNumber(a) && IsNumber(b) ==> (PyEq(a, b) <==> NumberOf(a) == NumberOf(b))
    ensures IsNumber(a) != IsNumber(b) ==> !PyEq(a, b)
    ensures !IsNumber(a) ==> (PyEq(a, b) <==> a == b)
  {
    if IsNumber(a) && IsNumber(b) then NumberOf(a) == NumberOf(b)
    else match (a, b)
      case (Str(x), Str(y)) => x == y
      case (Null, Null) => true
      case (Other(x), Other(y)) => x == y
      case _ => false
  }

  /** `v in items` for a list: some element compares equal to `v`. */
  predicate PyIn(v: Value, items: seq<Value>)
    ensures v in items ==> PyIn(v, items)
    ensures items == [] ==> !PyIn(v, items)
    decreases |items|
  {
    items != [] && (PyEq(v, items[0]) || PyIn(v, items[1..]))
  }

  lemma {:induction false} PyInAt(v: Value, items: seq<Value>)
    ensures PyIn(v, items) <==> exists k :: 0 <= k < |items| && PyEq(v, items[k])
  {
    if items != [] {
      PyInAt(v, items[1..]);
      if PyIn(v, items[1..]) {
        var k :| 0 <= k < |items[1..]| && PyEq(v, items[1..][k]);
        assert PyEq(v, items[k + 1]);
      }
      if exists k :: 0 <= k < |items| && PyEq(v, items[k]) {
        var k :| 0 <= k < |items| && PyEq(v, items[k]);
        if k > 0 {
          assert PyEq(v, items[1..][k - 1]);
        }
      }
    }
  }

  /** `bool(v)`: a number is true when it is not zero, a string when it is
      not empty; `None` is false and any other object true. */
  predicate Truthy(v: Value)
    ensures IsNumber(v) ==> (Truthy(v) <==> NumberOf(v) != 0.0)
    ensures v.Str? ==> (Truthy(v) <==> v.s != [])
    ensures v.Null? ==> !Truthy(v)
    ensures v.Other? ==> Truthy(v)
  {
    match v
    case Str(s) => s != []
    case Int(i) => i != 0
    case Float(f) => f != 0.0
    case Bool(b) => b
    case Null => false
    case Other(_) => true
  }

  /** The test `value and isinstance(value, str)` of the string codecs. */
  predicate NonEmptyStr(v: Value)
    ensures NonEmptyStr(v) <==> v.Str? && v.s != []
  {
    Truthy(v) && v.Str?
  }
}
